=== FILE: README.md ===
# Resilience Architect MCP server — a Dafny model of its tool layer

The Resilience Architect MCP server exposes AWS Fault Injection Service (FIS),
CloudFormation, Resource Explorer and AWS Config operations as tools. This
project models, as pure Dafny functions over immutable values, what those tools
do:

- which remote calls they issue, and with which parameters;
- what they return;
- what they log;
- which exception they raise.

It also models the startup logic that decides the region, the profile, the
client handles and the write flag.

Each tool is a function returning a `Run`. A `Run` has three parts:

- the result, `Ok(value)` or `Err(failure)`;
- the sequence of requests sent to the remote service;
- the lines written to the tool's context log.

Remote services become inputs:

- A single-call tool takes a `Response`: the reply, or the exception the call raises.
- A paginated tool takes a finite script of replies, consumed one per call.
  The theorems about a well-behaved service use `Pagination.Serve`, a script that
  answers call k with page k of a chain of pages in which only the last page
  lacks a token.

Python's semantics are written out where they matter:

- truthiness of `None`, `""`, `{}` and `0`;
- `str(None)`;
- `dict.get` defaults;
- `int()` truncating toward zero;
- `str(int)`.

Modules, one file each:

| file | module | models |
|---|---|---|
| common.dfy | Common | option and result types, Python truthiness, the failure kinds and their `str()`, the log-and-re-raise step |
| decimal.dfy | Decimal | `int()` on a float and `str()` on an int, with round-trip proofs |
| pagination.dfy | Pagination | the follow-the-token loop every list tool uses |
| registry.dfy | Registry | the five global client handles, session choice, (re)initialisation, the entry point |
| mutating.dfy | Mutating | the client-then-write-flag gate and the `Name`-seeded tag map |
| models.dfy | Models | the state and actions-mode enumerations and the validated request records |
| fis_tools.dfy | FisTools | list/get experiments, list/get templates, start experiment |
| template_tools.dfy | TemplateTools | create and update experiment templates |
| discovery_tools.dfy | DiscoveryTools | stacks, stack resources, views, search, view creation, relationship discovery |

Behaviours of the code that the model keeps as written, some of them easy to
overlook:

- `get_experiment_details` never checks its client handle. With no client, the
  failure is the `AttributeError` from calling a method on `None`, and it is
  logged like any other error.
- In `start_experiment`, `create_experiment_template` and `create_view` the
  client check runs outside the tool's `try`. Its failure is therefore raised
  without a log line. The write-flag refusal does log one line.
- `update_experiment_template` never reads the write flag. It builds its keyword
  map before it checks the client, and that check sits inside the `try`, so it
  is logged.
- Pagination continues while the response has a token key at all. An empty
  token still triggers another call. `search_resources` forwards a caller's
  token only when it is truthy.
- The effective region is the command-line region when truthy, else
  `AWS_REGION` when set, even to the empty string, else `us-east-1`.
- Clients are re-initialised only when a profile or a region was given on the
  command line.
- A failed client construction leaves the handles assigned before it in place.

## Model

| member | source | states |
|---|---|---|
| Common.Raise | resilience_architect_mcp/tools/fis_service_tools.py:146-148 | a caught exception is re-raised unchanged after exactly one error line, which starts with the tool's message prefix; no further call is made |
| Decimal.NatToDecimal | aws_fis_mcp_server/tools/resource_discovery_tools.py:276 | `str(n)` is a nonempty digit string with no leading zero except for 0 itself |
| Decimal.NatDecimalRoundTrip | aws_fis_mcp_server/tools/resource_discovery_tools.py:276 | reading the rendered digits back gives the number |
| Decimal.IntToDecimal | aws_fis_mcp_server/tools/resource_discovery_tools.py:276 | `str(i)` starts with a minus sign exactly when `i` is negative, and its digits have no leading zero (never "-0" or "007") |
| Decimal.IntDecimalRoundTrip | aws_fis_mcp_server/tools/resource_discovery_tools.py:276 | parsing `str(i)` gives back `i`, so distinct integers render differently |
| Decimal.TruncateToInt | aws_fis_mcp_server/tools/resource_discovery_tools.py:276 | `int(t)` on a float lies within one of `t`, on the side toward zero |
| Pagination.FollowFrom | resilience_architect_mcp/tools/fis_service_tools.py:137-143 | the loop issues calls until the first reply without a token or the first exception; it never calls past that reply, and it fails exactly when that reply was an exception, with that exception |
| Pagination.Paginate | resilience_architect_mcp/tools/fis_service_tools.py:137-143 | the first call carries no token and at least one call is made |
| Pagination.PaginateChain | resilience_architect_mcp/tools/fis_service_tools.py:137-145 | over a chain of pages, the result is every page's items in page order; there is one call per page, and each call after the first carries the previous page's token |
| Pagination.PaginateAbort | resilience_architect_mcp/tools/fis_service_tools.py:141-148 | an exception on call n+1 discards the items gathered so far and re-raises it after exactly n+1 calls |
| Pagination.PaginateIgnoresTail | resilience_architect_mcp/tools/fis_service_tools.py:141-143 | replies after the stopping one are never requested and cannot change the outcome |
| Pagination.CollectAll | resilience_architect_mcp/tools/fis_service_tools.py:126-148 | a list tool reports a missing client without calling; otherwise its calls and its result are exactly those of the pagination loop, so an exception on any page is re-raised with no partial result; success logs nothing, and any failure logs one prefixed error line |
| Pagination.CollectAllChain | resilience_architect_mcp/tools/fis_service_tools.py:126-148 | with a client and a chain of pages, a list tool returns the concatenation after one call per page and logs nothing |
| Pagination.CollectAllAbort | resilience_architect_mcp/tools/fis_service_tools.py:137-148 | an exception on call n+1 after n token-bearing pages is re-raised after exactly n+1 calls, with `prefix + str(e)` logged once and no items returned |
| Pagination.CollectAllFirstCallFails | resilience_architect_mcp/tools/fis_service_tools.py:126-148 | when the first call raises, the tool makes that one call, logs `prefix + str(e)` and re-raises `e` |
| Registry.OpenSession | resilience_architect_mcp/server.py:172-176 | the session carries the profile exactly when the profile is truthy, and always the given region |
| Registry.InitializeClients | resilience_architect_mcp/server.py:166-197 | on success all five handles are bound to the chosen session; a failure is re-raised, and after n handles were built the first n (in construction order) hold the new clients while every other handle keeps its previous value |
| Registry.InitDefaultClients | resilience_architect_mcp/server.py:129-159 | load-time initialisation uses the environment region and no profile, and swallows a failure |
| Registry.Boot | resilience_architect_mcp/server.py:112-163 | at module load writes are disabled, and a failed session leaves every handle unset |
| Registry.EffectiveRegion | resilience_architect_mcp/server.py:288 | the region is the command-line value if truthy, else the environment value if set, else `us-east-1` |
| Registry.Launch | resilience_architect_mcp/server.py:260-303 | the write flag comes from the command line; re-initialisation happens iff a profile or region was given, with (effective region, profile); serving starts unless that re-initialisation raised |
| Mutating.WriteDisabledMessage | resilience_architect_mcp/tools/fis_service_tools.py:228 | the refusal starts with "Write operations are disabled.", names the `--allow-writes` flag that enables writes, and names the capability |
| Mutating.Gate | resilience_architect_mcp/tools/fis_service_tools.py:221-230 | a mutating tool proceeds iff the client is set and writes are allowed; a missing client is raised unlogged; a refusal raises and logs once the refusal message for the tool's capability; neither issues a call |
| Mutating.SeedTags | resilience_architect_mcp/tools/fis_service_tools.py:234-238 | the tags are `Name` plus the caller's keys; the caller's values win, and `Name` holds the given name unless the caller overrides it |
| Models.ParseState | resilience_architect_mcp/models.py:22-39 | looking a state up by value succeeds exactly for the six state strings, and returns the matching member |
| Models.StatesEnumerated | resilience_architect_mcp/models.py:22-39 | there are six states with six distinct values, and value lookup inverts the spelling |
| Models.BuildStopCondition | resilience_architect_mcp/models.py:52-61 | validation succeeds iff source and value are both given, and names each missing one |
| Models.BuildTarget | resilience_architect_mcp/models.py:64-85 | resource type and selection mode are required; each of the four optional fields keeps a passed value and defaults to None |
| Models.BuildAction | resilience_architect_mcp/models.py:88-107 | only the action id is required; each of the four optional fields keeps a passed value and defaults to None |
| Models.BuildLogConfiguration | resilience_architect_mcp/models.py:110-123 | only the schema version is required; each destination configuration keeps a passed value and defaults to None |
| Models.BuildExperimentTemplateRequest | resilience_architect_mcp/models.py:126-159 | six fields are required and kept as given; tags, logging, options and report configuration keep a passed value and default to None |
| Models.BuildStartExperimentRequest | resilience_architect_mcp/models.py:162-183 | only the id is required; every optional field keeps a passed value; otherwise tags default to None, the action to run-all, and the timeout and poll intervals to 3600, 5 and 60 |
| Models.BuildResourceExplorerViewRequest | resilience_architect_mcp/models.py:186-201 | query and view name are required; tags, scope and client token keep a passed value and default to None |
| Models.StartExperimentRequestRoundTrip | resilience_architect_mcp/models.py:162-183 | passing every field of a start request back to its constructor rebuilds that request |
| FisTools.Label | resilience_architect_mcp/tools/fis_service_tools.py:58 | an experiment's key is its `Name` tag, else its id, else "Unknown" |
| FisTools.Index | resilience_architect_mcp/tools/fis_service_tools.py:56-65 | the keys of the map are the earlier keys plus exactly the labels of the items |
| FisTools.IndexLastWinsAt | resilience_architect_mcp/tools/fis_service_tools.py:56-65 | an item with no later item of the same label decides that label's entry |
| FisTools.IndexKeepsOthers | resilience_architect_mcp/tools/fis_service_tools.py:56-65 | a key that no item produces keeps its value |
| FisTools.IndexLastWins | resilience_architect_mcp/tools/fis_service_tools.py:56-78 | last writer wins for every label, and nothing else changes |
| FisTools.IndexAppend | resilience_architect_mcp/tools/fis_service_tools.py:56-78 | indexing two parts one after the other equals indexing their concatenation |
| FisTools.IndexPagesConcat | resilience_architect_mcp/tools/fis_service_tools.py:52-78 | the page-by-page loop equals indexing all experiments in page order |
| FisTools.ListAllExperiments | resilience_architect_mcp/tools/fis_service_tools.py:33-83 | a missing client is raised and logged without a call; otherwise its calls are those of the pagination loop, and it fails exactly when the loop does, with the same exception; the first call has no token; success logs nothing, and a failure logs one line starting "Error listing FIS experiments: " |
| FisTools.ListAllExperimentsChain | resilience_architect_mcp/tools/fis_service_tools.py:52-80 | over a chain of pages there is one call per page, the keys are exactly the labels of all experiments, and each key holds the last such experiment's summary |
| FisTools.ListAllExperimentsAbort | resilience_architect_mcp/tools/fis_service_tools.py:52-83 | an exception on page n+1 (the first or a later page) is re-raised after exactly n+1 calls, with no partial result and the one log line "Error listing FIS experiments: " + `str(e)` |
| FisTools.DuplicateNameLastWins | resilience_architect_mcp/tools/fis_service_tools.py:56-65 | two experiments named "Dup" leave a single entry, the later one |
| FisTools.GetExperimentDetails | resilience_architect_mcp/tools/fis_service_tools.py:87-113 | one call with the id, returning the `experiment` object or {}; with no client the AttributeError is raised and logged |
| FisTools.ListExperimentTemplates | resilience_architect_mcp/tools/fis_service_tools.py:117-148 | a missing client is raised without a call; otherwise its calls are those of the pagination loop, and it fails exactly when the loop does, with the same exception; the first call has no token; success logs nothing, and a failure logs one line starting "Error listing experiment templates: " |
| FisTools.ListExperimentTemplatesChain | resilience_architect_mcp/tools/fis_service_tools.py:137-145 | over a chain of pages: all templates in page order, one call per page |
| FisTools.ListExperimentTemplatesAbort | resilience_architect_mcp/tools/fis_service_tools.py:137-148 | an exception on page n+1 (the first or a later page) is re-raised after exactly n+1 calls, with no partial result and the one log line "Error listing experiment templates: " + `str(e)` |
| FisTools.GetExperimentTemplate | resilience_architect_mcp/tools/fis_service_tools.py:152-182 | one call with the id, returning the response unchanged; a failure, including a missing client, is logged once |
| FisTools.StartExperiment | resilience_architect_mcp/tools/fis_service_tools.py:186-260 | gate first, and a refusal names the `--allow-writes` flag; then exactly one start call with the template id, the seeded tags, and the given actions mode or "run-all" when omitted; a reply carrying `experiment.id` succeeds with status "started", that id, the name, the template id, the tags and the fixed message, logging the id; a reply without `experiment` or without `id` raises that KeyError, logged once |
| TemplateTools.ReportedId | resilience_architect_mcp/tools/experiment_template_tools.py:137 | the logged id is `experimentTemplate.id`, else "unknown" |
| TemplateTools.CreateExperimentTemplate | resilience_architect_mcp/tools/experiment_template_tools.py:35-142 | gate first, and a refusal names template creation and the `--allow-writes` flag; then exactly one create call with the seeded tags, empty stop conditions, targets and actions when absent, and the optional configurations as given; success returns the response and logs the created id |
| TemplateTools.UpdateParams | resilience_architect_mcp/tools/experiment_template_tools.py:193-219 | the keyword map always holds `id`, holds each other key iff its argument is not None, and holds no other key |
| TemplateTools.UpdateParamsRoundTrip | resilience_architect_mcp/tools/experiment_template_tools.py:195-219 | reading the keyword map back gives the original arguments, so no supplied value is lost or misplaced |
| TemplateTools.UpdateExperimentTemplate | resilience_architect_mcp/tools/experiment_template_tools.py:145-235 | with a client, exactly one update call with the sparse map; a missing client is raised and logged; success logs the id |
| TemplateTools.UpdateIgnoresWriteFlag | resilience_architect_mcp/tools/experiment_template_tools.py:193-235 | the update tool behaves identically whether writes are enabled or not |
| DiscoveryTools.ListCfnStacks | aws_fis_mcp_server/tools/resource_discovery_tools.py:38-70 | a missing client is raised and logged without a call; otherwise its calls are those of the pagination loop, and it fails exactly when the loop does, with the same exception; a failure logs one line starting "Error listing CloudFormation stacks: " |
| DiscoveryTools.ListCfnStacksChain | aws_fis_mcp_server/tools/resource_discovery_tools.py:58-67 | over a chain of pages: all stacks in page order, one call per page, no log |
| DiscoveryTools.ListCfnStacksAbort | aws_fis_mcp_server/tools/resource_discovery_tools.py:58-70 | an exception on page n+1 (the first or a later page) is re-raised after exactly n+1 calls, with no partial result and the one log line "Error listing CloudFormation stacks: " + `str(e)` |
| DiscoveryTools.GetStackResources | aws_fis_mcp_server/tools/resource_discovery_tools.py:73-116 | every call names the requested stack and carries the token of the pagination loop, the first none; it fails exactly when the loop does, with the same exception, logged once with the prefix "Error getting stack resources: " |
| DiscoveryTools.GetStackResourcesChain | aws_fis_mcp_server/tools/resource_discovery_tools.py:102-113 | over a chain of pages: all resources in order, one call per page, each later call carrying the stack name and the previous token |
| DiscoveryTools.GetStackResourcesAbort | aws_fis_mcp_server/tools/resource_discovery_tools.py:102-116 | an exception on page n+1 (the first or a later page) is re-raised after exactly n+1 calls, with no partial result and the one log line "Error getting stack resources: " + `str(e)` |
| DiscoveryTools.ListViews | aws_fis_mcp_server/tools/resource_discovery_tools.py:119-150 | a missing client is raised and logged without a call; otherwise its calls are those of the pagination loop, and it fails exactly when the loop does, with the same exception; success logs nothing |
| DiscoveryTools.ListViewsChain | aws_fis_mcp_server/tools/resource_discovery_tools.py:139-147 | over a chain of pages: all views in page order, one call per page |
| DiscoveryTools.ListViewsAbort | aws_fis_mcp_server/tools/resource_discovery_tools.py:139-150 | an exception on page n+1 (the first or a later page) is re-raised after exactly n+1 calls, with no partial result and the one log line "Error listing Resource Explorer views: " + `str(e)` |
| DiscoveryTools.SearchResources | aws_fis_mcp_server/tools/resource_discovery_tools.py:153-215 | one search call with the query, the view, the page size (100 when omitted), and the caller's token only when truthy; the result holds the resources, a count equal to their number, and the service's token iff it returned one; the info line states the count |
| DiscoveryTools.SearchResumes | aws_fis_mcp_server/tools/resource_discovery_tools.py:183-209 | feeding a returned token back into the next search sends exactly that token |
| DiscoveryTools.SynthesizedToken | aws_fis_mcp_server/tools/resource_discovery_tools.py:275-276 | the made-up token is "create-view-" followed by `str()` of the clock truncated toward zero, a numeral with no leading zero whose value is that truncation |
| DiscoveryTools.SynthesizedTokenSeconds | aws_fis_mcp_server/tools/resource_discovery_tools.py:276 | two clock readings give the same token iff they truncate to the same whole second |
| DiscoveryTools.SynthesizedTokenExamples | aws_fis_mcp_server/tools/resource_discovery_tools.py:276 | 42.9 gives "create-view-42" and -1.5 gives "create-view--1" |
| DiscoveryTools.CreateView | aws_fis_mcp_server/tools/resource_discovery_tools.py:218-290 | gate first, and a refusal names the `--allow-writes` flag; then one create call with the query as filter, the scope, the view name and the seeded tags; the token is the caller's if truthy, else synthesised from the clock |
| DiscoveryTools.Dedup | aws_fis_mcp_server/tools/resource_discovery_tools.py:385 | the result has no repeats and the same members as the input |
| DiscoveryTools.RelationshipTypes | aws_fis_mcp_server/tools/resource_discovery_tools.py:385 | the relationship types are exactly the distinct relationship names, "" standing for an absent name |
| DiscoveryTools.DiscoverRelationships | aws_fis_mcp_server/tools/resource_discovery_tools.py:293-395 | one history call with the order ("Reverse" when omitted) and the limit (10 when omitted), the limit sent only when truthy; an empty history gives the fixed message with no summary and no log; otherwise the result holds the first returned item's relationships (the latest under the default order), one digest per item with its own relationship count, capture and creation times ("" when absent), state id, region, zone and tags ({} when absent), the totals and the distinct types, and logs the count |

## Left out

- Remote services are not modelled. boto3, botocore's `Config`, and the AWS
  services themselves are absent; each remote call is replaced by the reply or
  exception given as input.
- FastMCP is not modelled: tool registration, the server loop and `mcp.run()`.
  `Launch` records only whether serving would start.
- argparse is not modelled: the command line arrives already parsed.
- `load_dotenv` and the environment are not modelled: `AWS_REGION` arrives as an
  optional input.
- loguru's process log is not modelled: only the per-call tool log (`ctx.info`
  and `ctx.error`) is.
- async execution and the sharing of the global handles between concurrent tool
  calls are not modelled: each tool runs on one immutable snapshot of the
  registry.
- `time.time()` is not modelled: the clock reading is the parameter `now`.
- Tool arguments: an argument whose declared default is not None is a
  `Models.Arg`, and an omitted one takes that default (`action`, `max_results`,
  `limit`, `chronological_order`). An argument whose default is None is an
  `Option`, and omitting it means passing None.
- Unbounded pagination is not modelled. The source loops as long as the service
  keeps returning a token. The model takes a finite script of replies and
  requires that some reply ends the chain (`StopsFrom`), so a service that never
  stops is outside the model.
- Response payloads are modelled only as far as the tools read them. Experiment
  summaries and configuration items are records of the fields the tools pick
  out. The `experiment` and `experimentTemplate` objects are read only for their
  `id`, and relationship records only for `relationshipName`. Every other value
  is a `map<string, string>` document passed through uninspected: stack
  summaries, stack resources, views, found resources, experiment states and
  options, and the rest of each relationship record.
- DiscoveryTools.DiscoverRelationships: the order of `relationship_types` is not
  specified. The source builds the list from a set, so its order is arbitrary.
  The model lists each name at its first occurrence, and the contract states only
  distinctness and membership.
- DiscoveryTools.DiscoverRelationships: timestamps reach the digest through
  `str()`. They are modelled as already-rendered strings, "" when absent.
- Models.BuildStartExperimentRequest: the timeout and poll-interval fields are
  built and kept, but nothing downstream is modelled for them. No tool reads
  them, because the start tool returns without polling.
- Models: validation covers only whether required fields are present. pydantic's
  type coercion and its error texts are not modelled.
- aws_fis_mcp_server/models.py is a duplicate of the modelled models file and is
  not modelled separately.
- resilience_architect_mcp/resources/experiment_template_resource.py is not part
  of this model.
- The constants module is not part of this model. The service names, the
  default region and the messages appear here as literals.
- The server module that the discovery tools import their handles from is not
  part of this model. The model reads them from the same registry as the other
  tools.
- Registry: the botocore retry and signature settings and the user-agent suffix
  are not modelled. They only configure the external client.

=== FILE: common.dfy ===
/** Shared vocabulary of the tool layer: optional values and Python truthiness,
    the error taxonomy, the caller-visible log and the trace of one tool call.

    Every tool is modelled as a pure function that returns a `Run`: the value it
    returns or the exception it raises, the requests it sent to the remote
    service (in order), and the `ctx.info` / `ctx.error` messages it emitted. */
module Common {

  datatype Option<+T> = None | Some(value: T) {
    /** The wrapped value, or `default` for None (Python's `x or default` on an optional). */
    function GetOr(default: T): T {
      if Some? then value else default
    }
  }

  /** A tag map: tag key to tag value. */
  type Tags = map<string, string>

  /** A JSON object the tool layer only passes through or looks keys up in.
      Values are abstracted to strings: nothing here inspects them. */
  type Document = map<string, string>

  /** Python truthiness of an optional string: None and "" are both false. */
  predicate Truthy(s: Option<string>) {
    s.Some? && s.value != ""
  }

  /** Python truthiness of an optional dict: None and {} are both false. */
  predicate TruthyMap<K, V>(m: Option<map<K, V>>) {
    m.Some? && |m.value| > 0
  }

  /** Python truthiness of an optional int: None and 0 are both false. */
  predicate TruthyInt(n: Option<int>) {
    n.Some? && n.value != 0
  }

  /** `str(x)` of a value that is a string or None. */
  function PyStr(s: Option<string>): string {
    if s.Some? then s.value else "None"
  }

  /** `needle in haystack` for strings. */
  predicate Contains(haystack: string, needle: string) {
    exists i :: 0 <= i <= |haystack| && needle <= haystack[i..]
  }

  /** An exception raised by a remote service call; `text` is its `str()`. */
  datatype RemoteError = RemoteError(text: string)

  /** Every exception a tool can raise. */
  datatype Failure =
    | NotInitialized(message: string)   // a client handle is None
    | WriteDisabled(message: string)    // the write gate refused a mutating call
    | Remote(error: RemoteError)        // passed through unchanged from the service
    | MissingKey(key: string)           // KeyError on subscripting a response
    | NoneAttribute(attribute: string)  // AttributeError on a method of an unset client
    | Invalid(missing: seq<string>)     // request-model validation: required fields absent

  /** `str(e)` of a raised failure. */
  function Describe(f: Failure): string {
    match f
    case NotInitialized(m) => m
    case WriteDisabled(m) => m
    case Remote(e) => e.text
    case MissingKey(k) => "'" + k + "'"
    case NoneAttribute(a) => "'NoneType' object has no attribute '" + a + "'"
    case Invalid(missing) => "validation error: missing required field"
  }

  datatype Result<+T> = Ok(value: T) | Err(failure: Failure)

  /** One message sent to the caller-visible log (`ctx.info` / `ctx.error`). */
  datatype LogEntry = Info(text: string) | Error(text: string)

  /** The observable effect of one tool invocation. */
  datatype Run<+T, +C> = Run(result: Result<T>, calls: seq<C>, log: seq<LogEntry>)

  /** What a single remote call does: return a response or raise. */
  datatype Response<+R> = Returns(value: R) | Throws(error: RemoteError)

  /** The uniform error policy inside a tool's `try`: log one error line naming
      the operation, then re-raise the same exception. */
  function Raise<T, C>(f: Failure, calls: seq<C>, prefix: string): (r: Run<T, C>)
    ensures r.result == Err(f) && r.calls == calls
    ensures |r.log| == 1 && r.log[0].Error? && prefix <= r.log[0].text
  {
    Run(Err(f), calls, [Error(prefix + Describe(f))])
  }
}

=== FILE: decimal.dfy ===
/** Python's `int(x)` on a float and `str(n)` on an int, which the tools use to
    render the clock into a client token and counts into log messages. */
module Decimal {
  import opened Common

  predicate IsDigit(c: char) {
    '0' <= c <= '9'
  }

  predicate AllDigits(s: string) {
    forall i :: 0 <= i < |s| ==> IsDigit(s[i])
  }

  function DigitChar(d: nat): (c: char)
    requires d < 10
    ensures IsDigit(c)
  {
    (('0' as int) + d) as char
  }

  function DigitValue(c: char): (d: nat)
    requires IsDigit(c)
    ensures d < 10
  {
    (c as int) - ('0' as int)
  }

  /** The decimal numeral of a natural number, most significant digit first. */
  function NatToDecimal(n: nat): (s: string)
    ensures |s| >= 1 && AllDigits(s)
    ensures s[0] == '0' ==> n == 0 && |s| == 1
  {
    if n < 10 then [DigitChar(n)] else NatToDecimal(n / 10) + [DigitChar(n % 10)]
  }

  /** The value of a string of decimal digits (reference reading, left to right). */
  function DecimalValue(s: string): nat
    requires AllDigits(s)
  {
    if |s| == 0 then 0 else 10 * DecimalValue(s[..|s| - 1]) + DigitValue(s[|s| - 1])
  }

  /** Reading back a rendered natural number gives the number. */
  lemma {:induction false} NatDecimalRoundTrip(n: nat)
    ensures DecimalValue(NatToDecimal(n)) == n
  {
    var s := NatToDecimal(n);
    if n >= 10 {
      NatDecimalRoundTrip(n / 10);
      assert s[..|s| - 1] == NatToDecimal(n / 10);
    }
  }

  /** `str(i)` for a Python int: a minus sign exactly for a negative value, then
      the digits with no leading zero (so never "-0" or "007"). */
  function IntToDecimal(i: int): (s: string)
    ensures i < 0 <==> (|s| > 0 && s[0] == '-')
    ensures i >= 0 ==> |s| >= 1 && AllDigits(s) && (s[0] == '0' ==> |s| == 1)
    ensures i < 0 ==> |s| >= 2 && AllDigits(s[1..]) && s[1] != '0'
  {
    if i < 0 then
      var d := NatToDecimal(-i);
      assert ("-" + d)[1..] == d;
      "-" + d
    else NatToDecimal(i)
  }

  /** `int(s)` on a string produced by `str`: an optional minus sign, then digits. */
  function ParseInt(s: string): Option<int> {
    if |s| > 0 && s[0] == '-' then
      (if |s| > 1 && AllDigits(s[1..]) then Some(-(DecimalValue(s[1..]) as int)) else None)
    else if |s| > 0 && AllDigits(s) then Some(DecimalValue(s) as int)
    else None
  }

  /** Rendering then parsing an int is the identity, so the rendering is injective. */
  lemma IntDecimalRoundTrip(i: int)
    ensures ParseInt(IntToDecimal(i)) == Some(i)
  {
    var s := IntToDecimal(i);
    if i < 0 {
      var d := NatToDecimal(-i);
      NatDecimalRoundTrip(-i);
      assert s[1..] == d;
      assert |s| > 1 && s[0] == '-' && AllDigits(s[1..]);
    } else {
      NatDecimalRoundTrip(i);
      assert IsDigit(s[0]);
    }
  }

  /** Python's `int(t)` on a float: truncation toward zero. */
  function TruncateToInt(t: real): (i: int)
    ensures 0.0 <= t ==> i as real <= t < i as real + 1.0
    ensures t < 0.0 ==> i as real - 1.0 < t <= i as real
  {
    if t >= 0.0 then t.Floor else -((-t).Floor)
  }
}

=== FILE: discovery_tools.dfy ===
/** The resource-discovery tools: CloudFormation stacks and their resources,
    Resource Explorer views, search and view creation, and the AWS Config
    relationship summary. */
module DiscoveryTools {
  import opened Common
  import opened Decimal
  import opened Pagination
  import opened Registry
  import opened Mutating
  import opened Models

  const CfnNotInitialized := "AWS CloudFormation client not initialized. Please ensure the server is properly configured."
  const ExplorerNotInitialized := "AWS Resource Explorer client not initialized. Please ensure the server is properly configured."
  const ConfigNotInitialized := "AWS Config client not initialized. Please ensure the server is properly configured."

  /** Parameter defaults the tools declare; FastMCP supplies them for an omitted argument. */
  const DefaultMaxResults := 100
  const DefaultHistoryLimit := 10
  const DefaultChronologicalOrder := "Reverse"

  // ---------------------------------------------------------------- CloudFormation

  /** `list_cfn_stacks` returns `{'stacks': ...}`. */
  datatype StackListing = StackListing(stacks: seq<Document>)

  /** `list_cfn_stacks`: follow tokens over `list_stacks`. */
  function ListCfnStacks(srv: Server, script: seq<Reply<Document>>): (r: Run<StackListing, Option<string>>)
    requires srv.clients.cloudFormation.Some? ==> StopsFrom(script, 0)
    ensures srv.clients.cloudFormation.None? ==> r.result == Err(NotInitialized(CfnNotInitialized)) && r.calls == []
    ensures srv.clients.cloudFormation.Some? ==> 1 <= |r.calls| <= |script| && r.calls[0] == None
    ensures srv.clients.cloudFormation.Some? ==> r.calls == Paginate(script).tokens
    ensures srv.clients.cloudFormation.Some? ==> (r.result.Err? <==> Paginate(script).items.Err?)
    ensures srv.clients.cloudFormation.Some? && r.result.Err? ==> r.result == Err(Paginate(script).items.failure)
    ensures r.result.Ok? ==> r.log == []
    ensures r.result.Err? ==> |r.log| == 1 && r.log[0].Error? && "Error listing CloudFormation stacks: " <= r.log[0].text
  {
    var c := CollectAll(srv.clients.cloudFormation.Some?, CfnNotInitialized, "Error listing CloudFormation stacks: ", script);
    Run(if c.result.Ok? then Ok(StackListing(c.result.value)) else Err(c.result.failure), c.calls, c.log)
  }

  /** Over a well-behaved service: every page's stacks in page order, one call per page. */
  lemma ListCfnStacksChain(srv: Server, pages: seq<Page<Document>>)
    requires srv.clients.cloudFormation.Some? && Chain(pages)
    ensures StopsFrom(Serve(pages), 0)
    ensures ListCfnStacks(srv, Serve(pages)).result == Ok(StackListing(Concat(pages)))
    ensures |ListCfnStacks(srv, Serve(pages)).calls| == |pages|
    ensures ListCfnStacks(srv, Serve(pages)).log == []
  {
    CollectAllChain(CfnNotInitialized, "Error listing CloudFormation stacks: ", pages);
  }

  /** An exception on any page is logged once and re-raised after the failing
      call; the pages fetched before it are discarded. */
  lemma ListCfnStacksAbort(srv: Server, pages: seq<Page<Document>>, e: RemoteError, tail: seq<Reply<Document>>)
    requires srv.clients.cloudFormation.Some? && forall k :: 0 <= k < |pages| ==> pages[k].nextToken.Some?
    ensures StopsFrom(Serve(pages) + [Raised(e)] + tail, 0)
    ensures ListCfnStacks(srv, Serve(pages) + [Raised(e)] + tail).result == Err(Remote(e))
    ensures |ListCfnStacks(srv, Serve(pages) + [Raised(e)] + tail).calls| == |pages| + 1
    ensures ListCfnStacks(srv, Serve(pages) + [Raised(e)] + tail).log == [Error("Error listing CloudFormation stacks: " + e.text)]
  {
    CollectAllAbort(CfnNotInitialized, "Error listing CloudFormation stacks: ", pages, e, tail);
  }

  /** One `list_stack_resources` request: the stack name and the continuation token. */
  datatype StackResourcesCall = StackResourcesCall(stackName: string, nextToken: Option<string>)

  /** `get_stack_resources` returns `{'resources': ...}`. */
  datatype ResourceListing = ResourceListing(resources: seq<Document>)

  /** `get_stack_resources`: follow tokens over `list_stack_resources`, every call
      naming the same stack. */
  function GetStackResources(srv: Server, stackName: string, script: seq<Reply<Document>>): (r: Run<ResourceListing, StackResourcesCall>)
    requires srv.clients.cloudFormation.Some? ==> StopsFrom(script, 0)
    ensures srv.clients.cloudFormation.None? ==> r.result == Err(NotInitialized(CfnNotInitialized)) && r.calls == []
    ensures srv.clients.cloudFormation.Some? ==> 1 <= |r.calls| <= |script| && r.calls[0] == StackResourcesCall(stackName, None)
    ensures forall k :: 0 <= k < |r.calls| ==> r.calls[k].stackName == stackName
    ensures srv.clients.cloudFormation.Some? ==>
              |r.calls| == |Paginate(script).tokens|
              && forall k :: 0 <= k < |r.calls| ==> r.calls[k].nextToken == Paginate(script).tokens[k]
    ensures srv.clients.cloudFormation.Some? ==> (r.result.Err? <==> Paginate(script).items.Err?)
    ensures srv.clients.cloudFormation.Some? && r.result.Err? ==> r.result == Err(Paginate(script).items.failure)
    ensures r.result.Ok? ==> r.log == []
    ensures r.result.Err? ==> |r.log| == 1 && r.log[0].Error? && "Error getting stack resources: " <= r.log[0].text
  {
    var c := CollectAll(srv.clients.cloudFormation.Some?, CfnNotInitialized, "Error getting stack resources: ", script);
    var calls := seq(|c.calls|, k requires 0 <= k < |c.calls| => StackResourcesCall(stackName, c.calls[k]));
    Run(if c.result.Ok? then Ok(ResourceListing(c.result.value)) else Err(c.result.failure), calls, c.log)
  }

  /** Over a well-behaved service: every page's resources in page order, one call
      per page, each call after the first carrying the previous page's token. */
  lemma GetStackResourcesChain(srv: Server, stackName: string, pages: seq<Page<Document>>)
    requires srv.clients.cloudFormation.Some? && Chain(pages)
    ensures StopsFrom(Serve(pages), 0)
    ensures GetStackResources(srv, stackName, Serve(pages)).result == Ok(ResourceListing(Concat(pages)))
    ensures |GetStackResources(srv, stackName, Serve(pages)).calls| == |pages|
    ensures forall k :: 0 < k < |pages| ==>
              GetStackResources(srv, stackName, Serve(pages)).calls[k] == StackResourcesCall(stackName, pages[k - 1].nextToken)
  {
    PaginateChain(pages);
    CollectAllChain(CfnNotInitialized, "Error getting stack resources: ", pages);
  }

  /** An exception on any page is logged once and re-raised after the failing
      call; the pages fetched before it are discarded. */
  lemma GetStackResourcesAbort(srv: Server, stackName: string, pages: seq<Page<Document>>, e: RemoteError, tail: seq<Reply<Document>>)
    requires srv.clients.cloudFormation.Some? && forall k :: 0 <= k < |pages| ==> pages[k].nextToken.Some?
    ensures StopsFrom(Serve(pages) + [Raised(e)] + tail, 0)
    ensures GetStackResources(srv, stackName, Serve(pages) + [Raised(e)] + tail).result == Err(Remote(e))
    ensures |GetStackResources(srv, stackName, Serve(pages) + [Raised(e)] + tail).calls| == |pages| + 1
    ensures GetStackResources(srv, stackName, Serve(pages) + [Raised(e)] + tail).log == [Error("Error getting stack resources: " + e.text)]
  {
    CollectAllAbort(CfnNotInitialized, "Error getting stack resources: ", pages, e, tail);
  }

  // ---------------------------------------------------------------- Resource Explorer

  /** `list_views`: follow tokens over `list_views`; the bare list is returned. */
  function ListViews(srv: Server, script: seq<Reply<Document>>): (r: Run<seq<Document>, Option<string>>)
    requires srv.clients.resourceExplorer.Some? ==> StopsFrom(script, 0)
    ensures srv.clients.resourceExplorer.None? ==> r.result == Err(NotInitialized(ExplorerNotInitialized)) && r.calls == []
    ensures srv.clients.resourceExplorer.Some? ==> 1 <= |r.calls| <= |script| && r.calls[0] == None
    ensures srv.clients.resourceExplorer.Some? ==> r.calls == Paginate(script).tokens
    ensures srv.clients.resourceExplorer.Some? ==> (r.result.Err? <==> Paginate(script).items.Err?)
    ensures srv.clients.resourceExplorer.Some? && r.result.Err? ==> r.result == Err(Paginate(script).items.failure)
    ensures r.result.Ok? ==> r.log == []
    ensures r.result.Err? ==> |r.log| == 1 && r.log[0].Error? && "Error listing Resource Explorer views: " <= r.log[0].text
  {
    CollectAll(srv.clients.resourceExplorer.Some?, ExplorerNotInitialized, "Error listing Resource Explorer views: ", script)
  }

  /** Over a well-behaved service: every page's views in page order, one call per page. */
  lemma ListViewsChain(srv: Server, pages: seq<Page<Document>>)
    requires srv.clients.resourceExplorer.Some? && Chain(pages)
    ensures StopsFrom(Serve(pages), 0)
    ensures ListViews(srv, Serve(pages)).result == Ok(Concat(pages))
    ensures |ListViews(srv, Serve(pages)).calls| == |pages|
  {
    CollectAllChain(ExplorerNotInitialized, "Error listing Resource Explorer views: ", pages);
  }

  /** An exception on any page is logged once and re-raised after the failing
      call; the pages fetched before it are discarded. */
  lemma ListViewsAbort(srv: Server, pages: seq<Page<Document>>, e: RemoteError, tail: seq<Reply<Document>>)
    requires srv.clients.resourceExplorer.Some? && forall k :: 0 <= k < |pages| ==> pages[k].nextToken.Some?
    ensures StopsFrom(Serve(pages) + [Raised(e)] + tail, 0)
    ensures ListViews(srv, Serve(pages) + [Raised(e)] + tail).result == Err(Remote(e))
    ensures |ListViews(srv, Serve(pages) + [Raised(e)] + tail).calls| == |pages| + 1
    ensures ListViews(srv, Serve(pages) + [Raised(e)] + tail).log == [Error("Error listing Resource Explorer views: " + e.text)]
  {
    CollectAllAbort(ExplorerNotInitialized, "Error listing Resource Explorer views: ", pages, e, tail);
  }

  /** One `search` request. */
  datatype SearchCall = SearchCall(queryString: string, viewArn: string, maxResults: int, nextToken: Option<string>)

  /** The service's answer: `Resources` and `NextToken`, each possibly absent. */
  datatype SearchReply = SearchReply(resources: Option<seq<Document>>, nextToken: Option<string>)

  /** What `search_resources` returns; `nextToken` is None when the key is left out. */
  datatype SearchResult = SearchResult(
    resources: seq<Document>,
    queryString: string,
    viewArn: string,
    count: nat,
    nextToken: Option<string>)

  /** `search_resources`: one search call (the token only when truthy), then the
      resources, their count and the service's token when it returned one. */
  function SearchResources(srv: Server, queryString: string, viewArn: string, maxResults: Arg<int>, nextToken: Option<string>,
                           reply: Response<SearchReply>): (r: Run<SearchResult, SearchCall>)
    ensures srv.clients.resourceExplorer.None? ==> r.result == Err(NotInitialized(ExplorerNotInitialized)) && r.calls == []
    ensures srv.clients.resourceExplorer.Some? ==> |r.calls| == 1
    ensures |r.calls| == 1 ==>
              && r.calls[0].queryString == queryString && r.calls[0].viewArn == viewArn
              && (maxResults.Omitted? ==> r.calls[0].maxResults == 100)
              && (maxResults.Passed? ==> r.calls[0].maxResults == maxResults.value)
              && (r.calls[0].nextToken.Some? <==> Truthy(nextToken))
              && (r.calls[0].nextToken.Some? ==> r.calls[0].nextToken == nextToken)
    ensures r.result.Ok? ==>
              && reply.Returns?
              && r.result.value.resources == reply.value.resources.GetOr([])
              && r.result.value.count == |r.result.value.resources|
              && r.result.value.queryString == queryString && r.result.value.viewArn == viewArn
              && r.result.value.nextToken == reply.value.nextToken
              && r.log == [Info("Found " + NatToDecimal(r.result.value.count) + " resources matching query: " + queryString)]
    ensures srv.clients.resourceExplorer.Some? && reply.Returns? ==> r.result.Ok?
    ensures srv.clients.resourceExplorer.Some? && reply.Throws? ==> r.result == Err(Remote(reply.error))
    ensures r.result.Err? ==> |r.log| == 1 && r.log[0].Error? && "Error searching resources: " <= r.log[0].text
  {
    var call := SearchCall(queryString, viewArn, maxResults.Or(DefaultMaxResults), if Truthy(nextToken) then nextToken else None);
    var prefix := "Error searching resources: ";
    if srv.clients.resourceExplorer.None? then Raise(NotInitialized(ExplorerNotInitialized), [], prefix)
    else match reply
      case Throws(e) => Raise(Remote(e), [call], prefix)
      case Returns(resp) =>
        var found := resp.resources.GetOr([]);
        Run(Ok(SearchResult(found, queryString, viewArn, |found|, resp.nextToken)), [call],
            [Info("Found " + NatToDecimal(|found|) + " resources matching query: " + queryString)])
  }

  /** Paging through search results: passing the returned token back as the next
      request's token (when it is not empty) resumes exactly there. */
  lemma SearchResumes(srv: Server, q: string, view: string, n: Arg<int>, token: Option<string>,
                      first: Response<SearchReply>, second: Response<SearchReply>)
    requires srv.clients.resourceExplorer.Some?
    requires SearchResources(srv, q, view, n, token, first).result.Ok?
    requires Truthy(SearchResources(srv, q, view, n, token, first).result.value.nextToken)
    ensures SearchResources(srv, q, view, n, SearchResources(srv, q, view, n, token, first).result.value.nextToken, second).calls
            == [SearchCall(q, view, n.Or(DefaultMaxResults), first.value.nextToken)]
  {
  }

  /** The `create_view` request. */
  datatype CreateViewCall = CreateViewCall(clientToken: string, filterString: string, scope: Option<string>, tags: Tags, viewName: string)

  const ViewCapability := "Resource Explorer view creation"
  const TokenStem := "create-view-"

  /** The idempotency token made up when the caller gives none: the stem followed
      by the clock's whole seconds (the float `now` truncated toward zero). */
  function SynthesizedToken(now: real): (t: string)
    ensures TokenStem <= t
    ensures t[|TokenStem|..] == IntToDecimal(TruncateToInt(now))
    ensures ParseInt(t[|TokenStem|..]) == Some(TruncateToInt(now))
  {
    var t := TokenStem + IntToDecimal(TruncateToInt(now));
    assert t[|TokenStem|..] == IntToDecimal(TruncateToInt(now));
    IntDecimalRoundTrip(TruncateToInt(now));
    t
  }

  /** Two clock readings in different whole seconds make different tokens, and two
      in the same second make the same token. */
  lemma SynthesizedTokenSeconds(a: real, b: real)
    ensures SynthesizedToken(a) == SynthesizedToken(b) <==> TruncateToInt(a) == TruncateToInt(b)
  {
    if SynthesizedToken(a) == SynthesizedToken(b) {
      assert SynthesizedToken(a)[|TokenStem|..] == SynthesizedToken(b)[|TokenStem|..];
    }
  }

  /** Worked readings: 42.9 seconds gives "create-view-42", and a clock before the
      epoch truncates toward zero, so -1.5 gives "create-view--1". */
  lemma SynthesizedTokenExamples()
    ensures SynthesizedToken(42.9) == "create-view-42"
    ensures SynthesizedToken(-1.5) == "create-view--1"
  {
    assert TruncateToInt(42.9) == 42;
    assert NatToDecimal(42) == NatToDecimal(4) + [DigitChar(2)];
    assert TruncateToInt(-1.5) == -1;
  }

  /** `create_view`: client check and write gate (outside the tool's `try`), then
      seeded tags, a token (the caller's when truthy, else synthesised from `now`)
      and one remote call whose response is returned as it is. */
  function CreateView<R>(srv: Server, query: string, viewName: string, name: string, tags: Option<Tags>,
                         scope: Option<string>, clientToken: Option<string>, now: real, reply: Response<R>): (r: Run<R, CreateViewCall>)
    ensures srv.clients.resourceExplorer.None? ==> r == Run(Err(NotInitialized(ExplorerNotInitialized)), [], [])
    ensures srv.clients.resourceExplorer.Some? && !srv.allowWrites ==>
              && r.calls == [] && r.result.Err? && r.result.failure.WriteDisabled?
              && WriteDisabledBanner <= r.result.failure.message
              && Contains(r.result.failure.message, AllowWritesHint)
              && Contains(r.result.failure.message, "Resource Explorer view creation")
              && r.log == [Error(r.result.failure.message)]
    ensures srv.clients.resourceExplorer.Some? && srv.allowWrites ==> |r.calls| == 1
    ensures |r.calls| == 1 ==>
              && r.calls[0].filterString == query && r.calls[0].viewName == viewName && r.calls[0].scope == scope
              && r.calls[0].tags == SeedTags(name, tags)
              && (Truthy(clientToken) ==> r.calls[0].clientToken == clientToken.value)
              && (!Truthy(clientToken) ==> r.calls[0].clientToken == SynthesizedToken(now))
    ensures srv.clients.resourceExplorer.Some? && srv.allowWrites && reply.Returns? ==>
              r.result == Ok(reply.value)
              && r.log == [Info("Created Resource Explorer view \"" + name + "\" with name: " + viewName)]
    ensures srv.clients.resourceExplorer.Some? && srv.allowWrites && reply.Throws? ==>
              r.result == Err(Remote(reply.error)) && r.log == [Error("Error creating Resource Explorer view: " + reply.error.text)]
  {
    match Gate(srv.clients.resourceExplorer.Some?, ExplorerNotInitialized, srv.allowWrites, ViewCapability)
    case Some(refused) => refused
    case None =>
      var token := if Truthy(clientToken) then clientToken.value else SynthesizedToken(now);
      var call := CreateViewCall(token, query, scope, SeedTags(name, tags), viewName);
      match reply
      case Throws(e) => Raise(Remote(e), [call], "Error creating Resource Explorer view: ")
      case Returns(v) => Run(Ok(v), [call], [Info("Created Resource Explorer view \"" + name + "\" with name: " + viewName)])
  }

  // ---------------------------------------------------------------- AWS Config

  /** A relationship record, passed through as the service returns it. */
  type Relationship = Document

  /** The `relationshipName` of a relationship, "" when absent. */
  function RelationshipName(rel: Relationship): string {
    if "relationshipName" in rel then rel["relationshipName"] else ""
  }

  /** One configuration item of the history; None marks an absent key. */
  datatype ConfigItem = ConfigItem(
    captureTime: Option<string>,
    stateId: Option<string>,
    awsRegion: Option<string>,
    availabilityZone: Option<string>,
    creationTime: Option<string>,
    tags: Option<Tags>,
    relationships: Option<seq<Relationship>>)

  /** One `get_resource_config_history` request; `limit` is present only when truthy. */
  datatype HistoryCall = HistoryCall(resourceType: string, resourceId: string, chronologicalOrder: Option<string>, limit: Option<int>)

  /** The service's answer: `configurationItems`, possibly absent. */
  datatype HistoryReply = HistoryReply(configurationItems: Option<seq<ConfigItem>>)

  /** The per-item digest the tool returns (no configuration payload). Times go
      through `str` with "" for an absent key. */
  datatype ItemSummary = ItemSummary(
    captureTime: string,
    stateId: Option<string>,
    awsRegion: Option<string>,
    availabilityZone: Option<string>,
    creationTime: string,
    tags: Tags,
    relationshipsCount: nat)

  datatype RelationshipSummary = RelationshipSummary(
    totalRelationships: nat,
    totalConfigurationItems: nat,
    relationshipTypes: seq<string>)

  /** What `discover_relationships` returns. `message` is set only for an empty
      history and `summary` only for a non-empty one. */
  datatype RelationshipReport = RelationshipReport(
    resourceType: string,
    resourceId: string,
    relationships: seq<Relationship>,
    configurationItems: seq<ItemSummary>,
    message: Option<string>,
    summary: Option<RelationshipSummary>)

  const NoItemsMessage := "No configuration items found for the specified resource"

  function SummarizeItem(item: ConfigItem): ItemSummary {
    ItemSummary(item.captureTime.GetOr(""), item.stateId, item.awsRegion, item.availabilityZone,
                item.creationTime.GetOr(""), item.tags.GetOr(map[]), |item.relationships.GetOr([])|)
  }

  /** No element occurs twice. */
  predicate Distinct(s: seq<string>) {
    forall i, j :: 0 <= i < j < |s| ==> s[i] != s[j]
  }

  /** The distinct elements of `s`, each at its first occurrence. */
  function Dedup(s: seq<string>): (d: seq<string>)
    ensures Distinct(d)
    ensures forall x :: x in d <==> x in s
    ensures |d| <= |s|
  {
    if |s| == 0 then []
    else
      var front := Dedup(s[..|s| - 1]);
      var last := s[|s| - 1];
      assert forall x :: x in s <==> x in s[..|s| - 1] || x == last by {
        assert s == s[..|s| - 1] + [last];
      }
      if last in front then front else front + [last]
  }

  /** The relationship types: the distinct relationship names. The source builds
      them through a set, so their order is unspecified; the model lists each at
      its first occurrence, and the contract speaks only of membership. */
  function RelationshipTypes(rels: seq<Relationship>): (types: seq<string>)
    ensures Distinct(types)
    ensures forall x :: x in types <==> exists k :: 0 <= k < |rels| && RelationshipName(rels[k]) == x
  {
    var names := seq(|rels|, k requires 0 <= k < |rels| => RelationshipName(rels[k]));
    assert forall x :: x in names <==> exists k :: 0 <= k < |rels| && RelationshipName(rels[k]) == x by {
      forall x | x in names ensures exists k :: 0 <= k < |rels| && RelationshipName(rels[k]) == x {
        var k :| 0 <= k < |names| && names[k] == x;
      }
      forall x | exists k :: 0 <= k < |rels| && RelationshipName(rels[k]) == x ensures x in names {
        var k :| 0 <= k < |rels| && RelationshipName(rels[k]) == x;
        assert names[k] == x;
      }
    }
    Dedup(names)
  }

  /** `discover_relationships`: one history call (the limit only when truthy);
      an empty history gives the fixed message and nothing else; otherwise the
      relationships of the first returned item (the most recent under the default
      order), a digest of every item and summary counts. */
  function DiscoverRelationships(srv: Server, resourceType: string, resourceId: string, limit: Arg<Option<int>>,
                                 chronologicalOrder: Arg<Option<string>>, reply: Response<HistoryReply>): (r: Run<RelationshipReport, HistoryCall>)
    ensures srv.clients.config.None? ==> r.result == Err(NotInitialized(ConfigNotInitialized)) && r.calls == []
    ensures srv.clients.config.Some? ==> |r.calls| == 1
    ensures |r.calls| == 1 ==>
              && r.calls[0].resourceType == resourceType && r.calls[0].resourceId == resourceId
              && (chronologicalOrder.Omitted? ==> r.calls[0].chronologicalOrder == Some("Reverse"))
              && (chronologicalOrder.Passed? ==> r.calls[0].chronologicalOrder == chronologicalOrder.value)
              && (limit.Omitted? ==> r.calls[0].limit == Some(10))
              && (limit.Passed? ==> (r.calls[0].limit.Some? <==> TruthyInt(limit.value)))
              && (limit.Passed? && r.calls[0].limit.Some? ==> r.calls[0].limit == limit.value)
    ensures srv.clients.config.Some? && reply.Throws? ==> r.result == Err(Remote(reply.error))
    ensures r.result.Err? ==> |r.log| == 1 && r.log[0].Error? && "Error discovering resource relationships: " <= r.log[0].text
    ensures r.result.Ok? ==> reply.Returns? && r.result.value.resourceType == resourceType && r.result.value.resourceId == resourceId
    ensures r.result.Ok? && |reply.value.configurationItems.GetOr([])| == 0 ==>
              && r.result.value == RelationshipReport(resourceType, resourceId, [], [], Some(NoItemsMessage), None)
              && r.log == []
    ensures r.result.Ok? && |reply.value.configurationItems.GetOr([])| > 0 ==>
              var items := reply.value.configurationItems.value;
              var rels := items[0].relationships.GetOr([]);
              && r.result.value.relationships == rels
              && r.result.value.message == None
              && |r.result.value.configurationItems| == |items|
              && (forall k :: 0 <= k < |items| ==>
                    && r.result.value.configurationItems[k].relationshipsCount == |items[k].relationships.GetOr([])|
                    && r.result.value.configurationItems[k].tags == items[k].tags.GetOr(map[])
                    && r.result.value.configurationItems[k].captureTime == items[k].captureTime.GetOr("")
                    && r.result.value.configurationItems[k].creationTime == items[k].creationTime.GetOr("")
                    && r.result.value.configurationItems[k].stateId == items[k].stateId
                    && r.result.value.configurationItems[k].awsRegion == items[k].awsRegion
                    && r.result.value.configurationItems[k].availabilityZone == items[k].availabilityZone)
              && r.result.value.summary.Some?
              && r.result.value.summary.value.totalRelationships == |rels|
              && r.result.value.summary.value.totalConfigurationItems == |items|
              && Distinct(r.result.value.summary.value.relationshipTypes)
              && (forall x :: x in r.result.value.summary.value.relationshipTypes <==>
                    exists k :: 0 <= k < |rels| && RelationshipName(rels[k]) == x)
              && r.log == [Info("Found " + NatToDecimal(|rels|) + " relationships for " + resourceType + " " + resourceId)]
    ensures srv.clients.config.Some? && reply.Returns? ==> r.result.Ok?
  {
    var sentLimit := limit.Or(Some(DefaultHistoryLimit));
    var call := HistoryCall(resourceType, resourceId, chronologicalOrder.Or(Some(DefaultChronologicalOrder)),
                            if TruthyInt(sentLimit) then sentLimit else None);
    var prefix := "Error discovering resource relationships: ";
    if srv.clients.config.None? then Raise(NotInitialized(ConfigNotInitialized), [], prefix)
    else match reply
      case Throws(e) => Raise(Remote(e), [call], prefix)
      case Returns(resp) =>
        var items := resp.configurationItems.GetOr([]);
        if |items| == 0 then
          Run(Ok(RelationshipReport(resourceType, resourceId, [], [], Some(NoItemsMessage), None)), [call], [])
        else
          var rels := items[0].relationships.GetOr([]);
          var digests := seq(|items|, k requires 0 <= k < |items| => SummarizeItem(items[k]));
          var summary := RelationshipSummary(|rels|, |items|, RelationshipTypes(rels));
          Run(Ok(RelationshipReport(resourceType, resourceId, rels, digests, None, Some(summary))), [call],
              [Info("Found " + NatToDecimal(|rels|) + " relationships for " + resourceType + " " + resourceId)])
  }
}

=== FILE: fis_tools.dfy ===
/** The FIS experiment tools: list every experiment keyed by its name, get one
    experiment, list and get experiment templates, and start an experiment. */
module FisTools {
  import opened Common
  import opened Pagination
  import opened Registry
  import opened Mutating
  import opened Models

  /** One experiment as the list call returns it; None marks an absent key. */
  datatype Experiment = Experiment(
    id: Option<string>,
    arn: Option<string>,
    experimentTemplateId: Option<string>,
    state: Option<Document>,
    experimentOptions: Option<Document>,
    tags: Option<Tags>)

  /** The entry the listing keeps per experiment. `arn` and the template id go
      through `str`, so an absent value becomes the text "None". */
  datatype ExperimentSummary = ExperimentSummary(
    id: Option<string>,
    arn: string,
    experimentTemplateId: string,
    state: Option<Document>,
    experimentOptions: Option<Document>)

  /** The key of an experiment: its `Name` tag, else its id, else "Unknown". */
  function Label(x: Experiment): (k: string)
    ensures x.tags.Some? && "Name" in x.tags.value ==> k == x.tags.value["Name"]
    ensures (x.tags.None? || "Name" !in x.tags.value) && x.id.Some? ==> k == x.id.value
    ensures (x.tags.None? || "Name" !in x.tags.value) && x.id.None? ==> k == "Unknown"
  {
    var tags := x.tags.GetOr(map[]);
    if "Name" in tags then tags["Name"] else x.id.GetOr("Unknown")
  }

  function Summarize(x: Experiment): ExperimentSummary {
    ExperimentSummary(x.id, PyStr(x.arn), PyStr(x.experimentTemplateId), x.state, x.experimentOptions)
  }

  /** Every label the items produce. */
  function Labels(items: seq<Experiment>): set<string> {
    set i | 0 <= i < |items| :: Label(items[i])
  }

  /** No later item shares the label of item `i`. */
  predicate LastWithLabel(items: seq<Experiment>, i: int)
    requires 0 <= i < |items|
  {
    forall j :: i < j < |items| ==> Label(items[j]) != Label(items[i])
  }

  /** Appending an item adds exactly its label. */
  lemma LabelsSnoc(items: seq<Experiment>)
    requires |items| > 0
    ensures Labels(items) == Labels(items[..|items| - 1]) + {Label(items[|items| - 1])}
  {
    var front := items[..|items| - 1];
    forall k | k in Labels(items) ensures k in Labels(front) + {Label(items[|items| - 1])} {
      var i :| 0 <= i < |items| && Label(items[i]) == k;
      if i < |items| - 1 { assert front[i] == items[i]; }
    }
    forall k | k in Labels(front) ensures k in Labels(items) {
      var i :| 0 <= i < |front| && Label(front[i]) == k;
      assert items[i] == front[i];
    }
  }

  /** Process the items in order, writing each item's summary under its label;
      a later item with the same label overwrites the earlier one. */
  function Index(acc: map<string, ExperimentSummary>, items: seq<Experiment>): (r: map<string, ExperimentSummary>)
    ensures r.Keys == acc.Keys + Labels(items)
    decreases |items|
  {
    if |items| == 0 then acc
    else
      var last := items[|items| - 1];
      LabelsSnoc(items);
      Index(acc, items[..|items| - 1])[Label(last) := Summarize(last)]
  }

  /** The last item carrying a label decides that label's entry. */
  lemma {:induction false} IndexLastWinsAt(acc: map<string, ExperimentSummary>, items: seq<Experiment>, i: nat)
    requires i < |items| && LastWithLabel(items, i)
    ensures Index(acc, items)[Label(items[i])] == Summarize(items[i])
    decreases |items|
  {
    var n := |items| - 1;
    var front := items[..n];
    assert Index(acc, items) == Index(acc, front)[Label(items[n]) := Summarize(items[n])];
    if i < n {
      assert Label(items[n]) != Label(items[i]);
      assert front[i] == items[i];
      assert LastWithLabel(front, i) by {
        forall j | i < j < |front| ensures Label(front[j]) != Label(front[i]) {
          assert front[j] == items[j];
        }
      }
      IndexLastWinsAt(acc, front, i);
    }
  }

  /** A key no item produces keeps its earlier value. */
  lemma {:induction false} IndexKeepsOthers(acc: map<string, ExperimentSummary>, items: seq<Experiment>, k: string)
    requires k in acc && k !in Labels(items)
    ensures Index(acc, items)[k] == acc[k]
    decreases |items|
  {
    if |items| > 0 {
      var n := |items| - 1;
      var front := items[..n];
      assert k != Label(items[n]);
      assert k !in Labels(front) by {
        forall i | 0 <= i < |front| ensures Label(front[i]) != k {
          assert front[i] == items[i];
          assert Label(items[i]) in Labels(items);
        }
      }
      IndexKeepsOthers(acc, front, k);
    }
  }

  /** Last writer wins: each label maps to the summary of the last item carrying
      it, and keys no item produces keep their earlier value. */
  lemma IndexLastWins(acc: map<string, ExperimentSummary>, items: seq<Experiment>)
    ensures forall i :: 0 <= i < |items| && LastWithLabel(items, i) ==> Index(acc, items)[Label(items[i])] == Summarize(items[i])
    ensures forall k :: k in acc && k !in Labels(items) ==> Index(acc, items)[k] == acc[k]
  {
    forall i | 0 <= i < |items| && LastWithLabel(items, i)
      ensures Index(acc, items)[Label(items[i])] == Summarize(items[i])
    {
      IndexLastWinsAt(acc, items, i);
    }
    forall k | k in acc && k !in Labels(items)
      ensures Index(acc, items)[k] == acc[k]
    {
      IndexKeepsOthers(acc, items, k);
    }
  }

  /** Indexing the concatenation equals indexing one part after the other. */
  lemma {:induction false} IndexAppend(acc: map<string, ExperimentSummary>, a: seq<Experiment>, b: seq<Experiment>)
    ensures Index(acc, a + b) == Index(Index(acc, a), b)
    decreases |b|
  {
    if |b| == 0 {
      assert a + b == a;
    } else {
      var n := |b| - 1;
      assert (a + b)[..|a + b| - 1] == a + b[..n];
      assert (a + b)[|a + b| - 1] == b[n];
      IndexAppend(acc, a, b[..n]);
    }
  }

  /** The loop as the source writes it: the first page's items, then each
      following page's items, into one growing map. */
  function IndexPages(acc: map<string, ExperimentSummary>, pages: seq<Page<Experiment>>): map<string, ExperimentSummary>
    decreases |pages|
  {
    if |pages| == 0 then acc else IndexPages(Index(acc, pages[0].items), pages[1..])
  }

  /** Page-by-page indexing equals indexing all items in page order. */
  lemma {:induction false} IndexPagesConcat(acc: map<string, ExperimentSummary>, pages: seq<Page<Experiment>>)
    ensures IndexPages(acc, pages) == Index(acc, Concat(pages))
    decreases |pages|
  {
    if |pages| > 0 {
      IndexPagesConcat(Index(acc, pages[0].items), pages[1..]);
      IndexAppend(acc, pages[0].items, Concat(pages[1..]));
    }
  }

  /** `list_all_fis_experiments`: follow tokens over `list_experiments` and key
      every experiment by its label. Any exception, including an unset client, is
      logged once and re-raised. */
  function ListAllExperiments(srv: Server, script: seq<Reply<Experiment>>): (r: Run<map<string, ExperimentSummary>, Option<string>>)
    requires srv.clients.fis.Some? ==> StopsFrom(script, 0)
    ensures srv.clients.fis.None? ==> r.result == Err(NotInitialized(FisNotInitialized)) && r.calls == []
    ensures srv.clients.fis.Some? ==> 1 <= |r.calls| <= |script| && r.calls[0] == None
    ensures srv.clients.fis.Some? ==> r.calls == Paginate(script).tokens
    ensures srv.clients.fis.Some? ==> (r.result.Err? <==> Paginate(script).items.Err?)
    ensures srv.clients.fis.Some? && r.result.Err? ==> r.result == Err(Paginate(script).items.failure)
    ensures r.result.Ok? ==> r.log == []
    ensures r.result.Err? ==> |r.log| == 1 && r.log[0].Error? && "Error listing FIS experiments: " <= r.log[0].text
  {
    var c := CollectAll(srv.clients.fis.Some?, FisNotInitialized, "Error listing FIS experiments: ", script);
    Run(if c.result.Ok? then Ok(Index(map[], c.result.value)) else Err(c.result.failure), c.calls, c.log)
  }

  /** Over a well-behaved service: one `list_experiments` call per page, the keys
      are exactly the labels of all experiments, and each key holds the summary of
      the last experiment (in page order) that carries it. */
  lemma ListAllExperimentsChain(srv: Server, pages: seq<Page<Experiment>>)
    requires srv.clients.fis.Some? && Chain(pages)
    ensures StopsFrom(Serve(pages), 0)
    ensures ListAllExperiments(srv, Serve(pages)).result == Ok(IndexPages(map[], pages))
    ensures |ListAllExperiments(srv, Serve(pages)).calls| == |pages|
    ensures IndexPages(map[], pages).Keys == Labels(Concat(pages))
    ensures forall i :: 0 <= i < |Concat(pages)| && LastWithLabel(Concat(pages), i) ==>
              IndexPages(map[], pages)[Label(Concat(pages)[i])] == Summarize(Concat(pages)[i])
  {
    CollectAllChain(FisNotInitialized, "Error listing FIS experiments: ", pages);
    IndexPagesConcat(map[], pages);
    IndexLastWins(map[], Concat(pages));
  }

  /** An exception on any page is logged once and re-raised after the failing
      call; the pages fetched before it are discarded. */
  lemma ListAllExperimentsAbort(srv: Server, pages: seq<Page<Experiment>>, e: RemoteError, tail: seq<Reply<Experiment>>)
    requires srv.clients.fis.Some? && forall k :: 0 <= k < |pages| ==> pages[k].nextToken.Some?
    ensures StopsFrom(Serve(pages) + [Raised(e)] + tail, 0)
    ensures ListAllExperiments(srv, Serve(pages) + [Raised(e)] + tail).result == Err(Remote(e))
    ensures |ListAllExperiments(srv, Serve(pages) + [Raised(e)] + tail).calls| == |pages| + 1
    ensures ListAllExperiments(srv, Serve(pages) + [Raised(e)] + tail).log == [Error("Error listing FIS experiments: " + e.text)]
  {
    CollectAllAbort(FisNotInitialized, "Error listing FIS experiments: ", pages, e, tail);
  }

  /** Two experiments tagged Name="Dup" leave one entry, the later one's. */
  lemma DuplicateNameLastWins(a: Experiment, b: Experiment)
    requires a.tags == Some(map["Name" := "Dup"]) && b.tags == Some(map["Name" := "Dup"])
    ensures Index(map[], [a, b]) == map["Dup" := Summarize(b)]
  {
    assert [a, b][..1] == [a];
    assert [a][..0] == [];
  }

  datatype GetExperimentReply = GetExperimentReply(experiment: Option<Document>)

  /** `get_experiment_details`: one `get_experiment` call, returning the
      `experiment` object or {} when absent. This tool does not check for an unset
      client: the method lookup on None raises AttributeError, which is logged. */
  function GetExperimentDetails(srv: Server, id: string, reply: Response<GetExperimentReply>): (r: Run<Document, string>)
    ensures srv.clients.fis.None? ==> r.result == Err(NoneAttribute("get_experiment")) && r.calls == []
    ensures srv.clients.fis.Some? ==> r.calls == [id]
    ensures srv.clients.fis.Some? && reply.Returns? ==> r.result == Ok(reply.value.experiment.GetOr(map[])) && r.log == []
    ensures srv.clients.fis.Some? && reply.Throws? ==> r.result == Err(Remote(reply.error))
    ensures r.result.Err? ==> |r.log| == 1 && r.log[0].Error?
  {
    var prefix := "Error getting experiment details: ";
    if srv.clients.fis.None? then Raise(NoneAttribute("get_experiment"), [], prefix)
    else match reply
      case Throws(e) => Raise(Remote(e), [id], prefix)
      case Returns(resp) => Run(Ok(resp.experiment.GetOr(map[])), [id], [])
  }

  /** `list_experiment_templates`: follow tokens over `list_experiment_templates`. */
  function ListExperimentTemplates<T>(srv: Server, script: seq<Reply<T>>): (r: Run<seq<T>, Option<string>>)
    requires srv.clients.fis.Some? ==> StopsFrom(script, 0)
    ensures srv.clients.fis.None? ==> r.result == Err(NotInitialized(FisNotInitialized)) && r.calls == []
    ensures srv.clients.fis.Some? ==> 1 <= |r.calls| <= |script| && r.calls[0] == None
    ensures srv.clients.fis.Some? ==> r.calls == Paginate(script).tokens
    ensures srv.clients.fis.Some? ==> (r.result.Err? <==> Paginate(script).items.Err?)
    ensures srv.clients.fis.Some? && r.result.Err? ==> r.result == Err(Paginate(script).items.failure)
    ensures r.result.Ok? ==> r.log == []
    ensures r.result.Err? ==> |r.log| == 1 && r.log[0].Error? && "Error listing experiment templates: " <= r.log[0].text
  {
    CollectAll(srv.clients.fis.Some?, FisNotInitialized, "Error listing experiment templates: ", script)
  }

  /** Over a well-behaved service: the concatenation of every page's templates in
      page order, one call per page. */
  lemma ListExperimentTemplatesChain<T>(srv: Server, pages: seq<Page<T>>)
    requires srv.clients.fis.Some? && Chain(pages)
    ensures StopsFrom(Serve(pages), 0)
    ensures ListExperimentTemplates(srv, Serve(pages)).result == Ok(Concat(pages))
    ensures |ListExperimentTemplates(srv, Serve(pages)).calls| == |pages|
  {
    CollectAllChain(FisNotInitialized, "Error listing experiment templates: ", pages);
  }

  /** An exception on any page is logged once and re-raised after the failing
      call; the pages fetched before it are discarded. */
  lemma ListExperimentTemplatesAbort<T>(srv: Server, pages: seq<Page<T>>, e: RemoteError, tail: seq<Reply<T>>)
    requires srv.clients.fis.Some? && forall k :: 0 <= k < |pages| ==> pages[k].nextToken.Some?
    ensures StopsFrom(Serve(pages) + [Raised(e)] + tail, 0)
    ensures ListExperimentTemplates(srv, Serve(pages) + [Raised(e)] + tail).result == Err(Remote(e))
    ensures |ListExperimentTemplates(srv, Serve(pages) + [Raised(e)] + tail).calls| == |pages| + 1
    ensures ListExperimentTemplates(srv, Serve(pages) + [Raised(e)] + tail).log == [Error("Error listing experiment templates: " + e.text)]
  {
    CollectAllAbort(FisNotInitialized, "Error listing experiment templates: ", pages, e, tail);
  }

  /** `get_experiment_template`: one call, response returned unchanged. */
  function GetExperimentTemplate<R>(srv: Server, id: string, reply: Response<R>): (r: Run<R, string>)
    ensures srv.clients.fis.None? ==> r.result == Err(NotInitialized(FisNotInitialized)) && r.calls == []
    ensures srv.clients.fis.Some? ==> r.calls == [id]
    ensures srv.clients.fis.Some? && reply.Returns? ==> r.result == Ok(reply.value) && r.log == []
    ensures srv.clients.fis.Some? && reply.Throws? ==> r.result == Err(Remote(reply.error))
    ensures r.result.Err? ==> |r.log| == 1 && r.log[0].Error?
  {
    var prefix := "Error getting experiment template: ";
    if srv.clients.fis.None? then Raise(NotInitialized(FisNotInitialized), [], prefix)
    else match reply
      case Throws(e) => Raise(Remote(e), [id], prefix)
      case Returns(v) => Run(Ok(v), [id], [])
  }

  /** The `start_experiment` request sent to the service. */
  datatype StartCall = StartCall(experimentTemplateId: string, actionsMode: Option<string>, tags: Tags)

  /** The service's answer: the `experiment` object, if present. */
  datatype StartReply = StartReply(experiment: Option<Document>)

  /** What the tool returns once the service acknowledged the start. */
  datatype Started = Started(
    experimentId: string,
    name: string,
    status: string,
    templateId: string,
    tags: Tags,
    message: string)

  /** The actions mode sent when the caller leaves `action` out: run every action. */
  const DefaultActionsMode := ActionsModeValue(RunAll)

  const StartCapability := "destructive operations like starting FIS experiments"

  /** `start_experiment`: client check, write gate, then one remote call with the
      seeded tags and the actions mode; returns immediately without polling. */
  function StartExperiment(srv: Server, id: string, name: string, tags: Option<Tags>, action: Arg<Option<string>>,
                           reply: Response<StartReply>): (r: Run<Started, StartCall>)
    ensures srv.clients.fis.None? ==> r == Run(Err(NotInitialized(FisNotInitialized)), [], [])
    ensures srv.clients.fis.Some? && !srv.allowWrites ==>
              && r.calls == [] && r.result.Err? && r.result.failure.WriteDisabled?
              && WriteDisabledBanner <= r.result.failure.message
              && Contains(r.result.failure.message, AllowWritesHint)
              && r.log == [Error(r.result.failure.message)]
    ensures srv.clients.fis.Some? && srv.allowWrites && action.Passed? ==> r.calls == [StartCall(id, action.value, SeedTags(name, tags))]
    ensures srv.clients.fis.Some? && srv.allowWrites && action.Omitted? ==> r.calls == [StartCall(id, Some("run-all"), SeedTags(name, tags))]
    ensures r.result.Ok? ==>
              && reply.Returns? && reply.value.experiment.Some? && "id" in reply.value.experiment.value
              && r.result.value.experimentId == reply.value.experiment.value["id"]
              && r.result.value.status == "started"
              && r.result.value.templateId == id
              && r.result.value.name == name
              && r.result.value.tags == SeedTags(name, tags)
              && |r.log| == 1 && r.log[0].Info?
    ensures srv.clients.fis.Some? && srv.allowWrites && reply.Returns? && reply.value.experiment.Some?
              && "id" in reply.value.experiment.value ==>
              && r.result.Ok?
              && r.result.value.message == "Experiment \"" + name + "\" started successfully. Use get_experiment tool to check status."
              && r.log == [Info("Started experiment \"" + name + "\" with ID: " + reply.value.experiment.value["id"])]
    ensures srv.clients.fis.Some? && srv.allowWrites && reply.Returns? && reply.value.experiment.None? ==>
              r.result == Err(MissingKey("experiment"))
    ensures srv.clients.fis.Some? && srv.allowWrites && reply.Returns? && reply.value.experiment.Some?
              && "id" !in reply.value.experiment.value ==>
              r.result == Err(MissingKey("id"))
    ensures srv.clients.fis.Some? && srv.allowWrites && reply.Throws? ==> r.result == Err(Remote(reply.error))
    ensures srv.clients.fis.Some? && r.result.Err? ==> |r.log| == 1 && r.log[0].Error?
    ensures srv.clients.fis.Some? && srv.allowWrites && r.result.Err? ==>
              r.log == [Error("Error starting experiment: " + Describe(r.result.failure))]
  {
    match Gate(srv.clients.fis.Some?, FisNotInitialized, srv.allowWrites, StartCapability)
    case Some(refused) => refused
    case None =>
      var experimentTags := SeedTags(name, tags);
      var call := StartCall(id, action.Or(Some(DefaultActionsMode)), experimentTags);
      var prefix := "Error starting experiment: ";
      match reply
      case Throws(e) => Raise(Remote(e), [call], prefix)
      case Returns(resp) =>
        if resp.experiment.None? then Raise(MissingKey("experiment"), [call], prefix)
        else if "id" !in resp.experiment.value then Raise(MissingKey("id"), [call], prefix)
        else
          var experimentId := resp.experiment.value["id"];
          Run(Ok(Started(experimentId, name, "started", id, experimentTags,
                         "Experiment \"" + name + "\" started successfully. Use get_experiment tool to check status.")),
              [call],
              [Info("Started experiment \"" + name + "\" with ID: " + experimentId)])
  }
}

=== FILE: models.dfy ===
/** The request and value models of the FIS tool layer: the experiment state and
    actions-mode enumerations, and the validated request records with their
    required fields and defaults.

    Construction from keyword arguments is modelled by `Build…` functions: every
    argument is either omitted or passed; an omitted required field fails
    validation, an omitted optional field takes its declared default. */
module Models {
  import opened Common

  /** The lifecycle states the remote service reports for an experiment. */
  datatype ExperimentState = Pending | Initiating | Running | Completed | Stopped | Failed

  const AllStates: seq<ExperimentState> := [Pending, Initiating, Running, Completed, Stopped, Failed]

  /** The string value of a state, as the service spells it. */
  function StateValue(s: ExperimentState): string {
    match s
    case Pending => "pending"
    case Initiating => "initiating"
    case Running => "running"
    case Completed => "completed"
    case Stopped => "stopped"
    case Failed => "failed"
  }

  /** Looking a state up by its value (`ExperimentState(v)`); None for any other string. */
  function ParseState(v: string): (r: Option<ExperimentState>)
    ensures r.Some? ==> StateValue(r.value) == v
    ensures (exists s :: StateValue(s) == v) ==> r.Some?
  {
    if v == "pending" then Some(Pending)
    else if v == "initiating" then Some(Initiating)
    else if v == "running" then Some(Running)
    else if v == "completed" then Some(Completed)
    else if v == "stopped" then Some(Stopped)
    else if v == "failed" then Some(Failed)
    else None
  }

  /** The enumeration has exactly six members, with six distinct values, and
      reading a value back gives the member it came from. */
  lemma StatesEnumerated()
    ensures |AllStates| == 6
    ensures forall s: ExperimentState :: s in AllStates
    ensures forall i, j :: 0 <= i < j < |AllStates| ==> StateValue(AllStates[i]) != StateValue(AllStates[j])
    ensures forall s: ExperimentState :: ParseState(StateValue(s)) == Some(s)
  {
    forall s: ExperimentState
      ensures s in AllStates && ParseState(StateValue(s)) == Some(s)
    {
      match s
      case Pending => assert AllStates[0] == s;
      case Initiating => assert AllStates[1] == s;
      case Running => assert AllStates[2] == s;
      case Completed => assert AllStates[3] == s;
      case Stopped => assert AllStates[4] == s;
      case Failed => assert AllStates[5] == s;
    }
  }

  /** The actions modes this layer knows; only running every action. */
  datatype ExperimentActionsMode = RunAll

  function ActionsModeValue(m: ExperimentActionsMode): string {
    match m
    case RunAll => "run-all"
  }

  datatype StopCondition = StopCondition(source: string, value: string)

  datatype Target = Target(
    resourceType: string,
    resourceArns: Option<seq<string>>,
    resourceTags: Option<Tags>,
    filters: Option<seq<Document>>,
    selectionMode: string,
    parameters: Option<Document>)

  datatype Action = Action(
    actionId: string,
    description: Option<string>,
    parameters: Option<Document>,
    targets: Option<map<string, string>>,
    startAfter: Option<seq<string>>)

  datatype LogConfiguration = LogConfiguration(
    logSchemaVersion: int,
    cloudWatchLogsConfiguration: Option<Document>,
    s3Configuration: Option<Document>)

  datatype ExperimentTemplateRequest = ExperimentTemplateRequest(
    clientToken: string,
    description: string,
    tags: Option<Tags>,
    stopConditions: seq<StopCondition>,
    targets: map<string, Target>,
    actions: map<string, Action>,
    roleArn: string,
    logConfiguration: Option<LogConfiguration>,
    experimentOptions: Option<map<string, string>>,
    reportConfiguration: Option<Document>)

  const DefaultMaxTimeoutSeconds := 3600
  const DefaultInitialPollInterval := 5
  const DefaultMaxPollInterval := 60

  datatype StartExperimentRequest = StartExperimentRequest(
    id: string,
    tags: Option<Tags>,
    action: ExperimentActionsMode,
    maxTimeoutSeconds: int,
    initialPollInterval: int,
    maxPollInterval: int)

  datatype ResourceExplorerViewRequest = ResourceExplorerViewRequest(
    query: string,
    viewName: string,
    tags: Option<Tags>,
    scope: Option<string>,
    clientToken: Option<string>)

  /** One keyword argument at construction time. */
  datatype Arg<T> = Omitted | Passed(value: T) {
    /** The passed value, or the field's declared default. */
    function Or(default: T): T {
      if Passed? then value else default
    }
  }

  /** The validation error entry for one required field: its name when omitted. */
  function Need<T>(name: string, a: Arg<T>): (m: seq<string>)
    ensures |m| == 0 <==> a.Passed?
    ensures a.Omitted? ==> m == [name]
  {
    if a.Passed? then [] else [name]
  }

  function BuildStopCondition(source: Arg<string>, value: Arg<string>): (r: Result<StopCondition>)
    ensures r.Ok? <==> source.Passed? && value.Passed?
    ensures r.Ok? ==> r.value == StopCondition(source.value, value.value)
    ensures source.Omitted? ==> r.Err? && r.failure.Invalid? && "source" in r.failure.missing
    ensures value.Omitted? ==> r.Err? && r.failure.Invalid? && "value" in r.failure.missing
  {
    var missing := Need("source", source) + Need("value", value);
    if |missing| > 0 then Err(Invalid(missing)) else Ok(StopCondition(source.value, value.value))
  }

  function BuildTarget(
    resourceType: Arg<string>, resourceArns: Arg<Option<seq<string>>>, resourceTags: Arg<Option<Tags>>,
    filters: Arg<Option<seq<Document>>>, selectionMode: Arg<string>, parameters: Arg<Option<Document>>): (r: Result<Target>)
    ensures r.Ok? <==> resourceType.Passed? && selectionMode.Passed?
    ensures r.Err? ==> r.failure.Invalid? && |r.failure.missing| > 0
    ensures resourceType.Omitted? ==> r.Err? && r.failure.Invalid? && "resource_type" in r.failure.missing
    ensures selectionMode.Omitted? ==> r.Err? && r.failure.Invalid? && "selection_mode" in r.failure.missing
    ensures r.Ok? ==> r.value.resourceType == resourceType.value && r.value.selectionMode == selectionMode.value
    ensures r.Ok? && resourceArns.Omitted? ==> r.value.resourceArns == None
    ensures r.Ok? && resourceArns.Passed? ==> r.value.resourceArns == resourceArns.value
    ensures r.Ok? && resourceTags.Omitted? ==> r.value.resourceTags == None
    ensures r.Ok? && resourceTags.Passed? ==> r.value.resourceTags == resourceTags.value
    ensures r.Ok? && filters.Omitted? ==> r.value.filters == None
    ensures r.Ok? && filters.Passed? ==> r.value.filters == filters.value
    ensures r.Ok? && parameters.Omitted? ==> r.value.parameters == None
    ensures r.Ok? && parameters.Passed? ==> r.value.parameters == parameters.value
  {
    var missing := Need("resource_type", resourceType) + Need("selection_mode", selectionMode);
    if |missing| > 0 then Err(Invalid(missing))
    else Ok(Target(resourceType.value, resourceArns.Or(None), resourceTags.Or(None), filters.Or(None),
                   selectionMode.value, parameters.Or(None)))
  }

  function BuildAction(
    actionId: Arg<string>, description: Arg<Option<string>>, parameters: Arg<Option<Document>>,
    targets: Arg<Option<map<string, string>>>, startAfter: Arg<Option<seq<string>>>): (r: Result<Action>)
    ensures r.Ok? <==> actionId.Passed?
    ensures r.Err? ==> r.failure == Invalid(["action_id"])
    ensures r.Ok? ==> r.value.actionId == actionId.value
    ensures r.Ok? && description.Omitted? ==> r.value.description == None
    ensures r.Ok? && description.Passed? ==> r.value.description == description.value
    ensures r.Ok? && parameters.Omitted? ==> r.value.parameters == None
    ensures r.Ok? && parameters.Passed? ==> r.value.parameters == parameters.value
    ensures r.Ok? && targets.Omitted? ==> r.value.targets == None
    ensures r.Ok? && targets.Passed? ==> r.value.targets == targets.value
    ensures r.Ok? && startAfter.Omitted? ==> r.value.startAfter == None
    ensures r.Ok? && startAfter.Passed? ==> r.value.startAfter == startAfter.value
  {
    var missing := Need("action_id", actionId);
    if |missing| > 0 then Err(Invalid(missing))
    else Ok(Action(actionId.value, description.Or(None), parameters.Or(None), targets.Or(None), startAfter.Or(None)))
  }

  function BuildLogConfiguration(
    logSchemaVersion: Arg<int>, cloudWatchLogsConfiguration: Arg<Option<Document>>, s3Configuration: Arg<Option<Document>>): (r: Result<LogConfiguration>)
    ensures r.Ok? <==> logSchemaVersion.Passed?
    ensures r.Err? ==> r.failure == Invalid(["log_schema_version"])
    ensures r.Ok? ==> r.value.logSchemaVersion == logSchemaVersion.value
    ensures r.Ok? && cloudWatchLogsConfiguration.Omitted? ==> r.value.cloudWatchLogsConfiguration == None
    ensures r.Ok? && cloudWatchLogsConfiguration.Passed? ==> r.value.cloudWatchLogsConfiguration == cloudWatchLogsConfiguration.value
    ensures r.Ok? && s3Configuration.Omitted? ==> r.value.s3Configuration == None
    ensures r.Ok? && s3Configuration.Passed? ==> r.value.s3Configuration == s3Configuration.value
  {
    var missing := Need("log_schema_version", logSchemaVersion);
    if |missing| > 0 then Err(Invalid(missing))
    else Ok(LogConfiguration(logSchemaVersion.value, cloudWatchLogsConfiguration.Or(None), s3Configuration.Or(None)))
  }

  function BuildExperimentTemplateRequest(
    clientToken: Arg<string>, description: Arg<string>, tags: Arg<Option<Tags>>,
    stopConditions: Arg<seq<StopCondition>>, targets: Arg<map<string, Target>>, actions: Arg<map<string, Action>>,
    roleArn: Arg<string>, logConfiguration: Arg<Option<LogConfiguration>>,
    experimentOptions: Arg<Option<map<string, string>>>, reportConfiguration: Arg<Option<Document>>): (r: Result<ExperimentTemplateRequest>)
    ensures r.Ok? <==> && clientToken.Passed? && description.Passed? && stopConditions.Passed?
                       && targets.Passed? && actions.Passed? && roleArn.Passed?
    ensures r.Err? ==> r.failure.Invalid? && |r.failure.missing| > 0
    ensures r.Ok? ==> && r.value.clientToken == clientToken.value && r.value.description == description.value
                      && r.value.stopConditions == stopConditions.value && r.value.targets == targets.value
                      && r.value.actions == actions.value && r.value.roleArn == roleArn.value
    ensures r.Ok? && tags.Omitted? ==> r.value.tags == None
    ensures r.Ok? && tags.Passed? ==> r.value.tags == tags.value
    ensures r.Ok? && logConfiguration.Omitted? ==> r.value.logConfiguration == None
    ensures r.Ok? && logConfiguration.Passed? ==> r.value.logConfiguration == logConfiguration.value
    ensures r.Ok? && experimentOptions.Omitted? ==> r.value.experimentOptions == None
    ensures r.Ok? && experimentOptions.Passed? ==> r.value.experimentOptions == experimentOptions.value
    ensures r.Ok? && reportConfiguration.Omitted? ==> r.value.reportConfiguration == None
    ensures r.Ok? && reportConfiguration.Passed? ==> r.value.reportConfiguration == reportConfiguration.value
  {
    var missing := Need("client_token", clientToken) + Need("description", description) + Need("stop_conditions", stopConditions) + Need("targets", targets) + Need("actions", actions) + Need("role_arn", roleArn);
    if |missing| > 0 then Err(Invalid(missing))
    else Ok(ExperimentTemplateRequest(clientToken.value, description.value, tags.Or(None), stopConditions.value,
                                      targets.value, actions.value, roleArn.value, logConfiguration.Or(None),
                                      experimentOptions.Or(None), reportConfiguration.Or(None)))
  }

  function BuildStartExperimentRequest(
    id: Arg<string>, tags: Arg<Option<Tags>>, action: Arg<ExperimentActionsMode>,
    maxTimeoutSeconds: Arg<int>, initialPollInterval: Arg<int>, maxPollInterval: Arg<int>): (r: Result<StartExperimentRequest>)
    ensures r.Ok? <==> id.Passed?
    ensures r.Err? ==> r.failure == Invalid(["id"])
    ensures r.Ok? ==> r.value.id == id.value
    ensures r.Ok? && tags.Omitted? ==> r.value.tags == None
    ensures r.Ok? && tags.Passed? ==> r.value.tags == tags.value
    ensures r.Ok? && action.Omitted? ==> r.value.action == RunAll
    ensures r.Ok? && action.Passed? ==> r.value.action == action.value
    ensures r.Ok? && maxTimeoutSeconds.Omitted? ==> r.value.maxTimeoutSeconds == 3600
    ensures r.Ok? && maxTimeoutSeconds.Passed? ==> r.value.maxTimeoutSeconds == maxTimeoutSeconds.value
    ensures r.Ok? && initialPollInterval.Omitted? ==> r.value.initialPollInterval == 5
    ensures r.Ok? && initialPollInterval.Passed? ==> r.value.initialPollInterval == initialPollInterval.value
    ensures r.Ok? && maxPollInterval.Omitted? ==> r.value.maxPollInterval == 60
    ensures r.Ok? && maxPollInterval.Passed? ==> r.value.maxPollInterval == maxPollInterval.value
  {
    var missing := Need("id", id);
    if |missing| > 0 then Err(Invalid(missing))
    else Ok(StartExperimentRequest(id.value, tags.Or(None), action.Or(RunAll), maxTimeoutSeconds.Or(DefaultMaxTimeoutSeconds),
                                   initialPollInterval.Or(DefaultInitialPollInterval), maxPollInterval.Or(DefaultMaxPollInterval)))
  }

  function BuildResourceExplorerViewRequest(
    query: Arg<string>, viewName: Arg<string>, tags: Arg<Option<Tags>>,
    scope: Arg<Option<string>>, clientToken: Arg<Option<string>>): (r: Result<ResourceExplorerViewRequest>)
    ensures r.Ok? <==> query.Passed? && viewName.Passed?
    ensures query.Omitted? ==> r.Err? && r.failure.Invalid? && "query" in r.failure.missing
    ensures viewName.Omitted? ==> r.Err? && r.failure.Invalid? && "view_name" in r.failure.missing
    ensures r.Ok? ==> r.value.query == query.value && r.value.viewName == viewName.value
    ensures r.Ok? && tags.Omitted? ==> r.value.tags == None
    ensures r.Ok? && tags.Passed? ==> r.value.tags == tags.value
    ensures r.Ok? && scope.Omitted? ==> r.value.scope == None
    ensures r.Ok? && scope.Passed? ==> r.value.scope == scope.value
    ensures r.Ok? && clientToken.Omitted? ==> r.value.clientToken == None
    ensures r.Ok? && clientToken.Passed? ==> r.value.clientToken == clientToken.value
  {
    var missing := Need("query", query) + Need("view_name", viewName);
    if |missing| > 0 then Err(Invalid(missing))
    else Ok(ResourceExplorerViewRequest(query.value, viewName.value, tags.Or(None), scope.Or(None), clientToken.Or(None)))
  }

  /** Passing every field of a request back to its constructor rebuilds it. */
  lemma StartExperimentRequestRoundTrip(q: StartExperimentRequest)
    ensures BuildStartExperimentRequest(Passed(q.id), Passed(q.tags), Passed(q.action), Passed(q.maxTimeoutSeconds),
                                        Passed(q.initialPollInterval), Passed(q.maxPollInterval)) == Ok(q)
  {
  }
}

=== FILE: mutating.dfy ===
/** Conventions shared by the mutating tools (start experiment, create template,
    create view): the client-then-write-flag gate and the seeded tag map. */
module Mutating {
  import opened Common

  /** The text every write-gate refusal starts with. */
  const WriteDisabledBanner := "Write operations are disabled."

  /** The flag every refusal tells the caller to pass. */
  const AllowWritesHint := "--allow-writes flag"

  /** The refusal message: the banner, then the flag that enables writes and the
      capability it would enable. */
  function WriteDisabledMessage(capability: string): (m: string)
    ensures WriteDisabledBanner <= m
    ensures Contains(m, AllowWritesHint)
    ensures Contains(m, capability)
  {
    var lead := "Write operations are disabled. Use --allow-writes flag to enable ";
    var m := lead + capability + ".";
    assert AllowWritesHint <= m[|"Write operations are disabled. Use "|..];
    assert capability <= m[|lead|..];
    m
  }

  /** The checks a gated tool runs before building any request: the client handle
      first (raised without a log line, since it sits outside the tool's `try`),
      then the write flag (one error line, then raised). None: both passed. */
  function Gate<T, C>(initialised: bool, notInitialized: string, allowWrites: bool, capability: string): (g: Option<Run<T, C>>)
    ensures g.None? <==> initialised && allowWrites
    ensures g.Some? ==> g.value.calls == [] && g.value.result.Err?
    ensures !initialised ==> g.Some? && g.value.result == Err(NotInitialized(notInitialized)) && g.value.log == []
    ensures initialised && !allowWrites ==> g.Some? && g.value.result == Err(WriteDisabled(WriteDisabledMessage(capability)))
    ensures initialised && !allowWrites ==> g.Some? && g.value.log == [Error(g.value.result.failure.message)]
  {
    if !initialised then Some(Run(Err(NotInitialized(notInitialized)), [], []))
    else if !allowWrites then
      var m := WriteDisabledMessage(capability);
      Some(Run(Err(WriteDisabled(m)), [], [Error(m)]))
    else None
  }

  /** The tag map a mutating tool sends: a `Name` tag holding the display name,
      overlaid with the caller's tags, which win on a clash (`Name` included). An
      absent or empty tag argument leaves just the `Name` tag. */
  function SeedTags(name: string, extra: Option<Tags>): (t: Tags)
    ensures t.Keys == {"Name"} + extra.GetOr(map[]).Keys
    ensures forall k :: k in extra.GetOr(map[]) ==> t[k] == extra.GetOr(map[])[k]
    ensures "Name" !in extra.GetOr(map[]) ==> t["Name"] == name
  {
    if TruthyMap(extra) then map["Name" := name] + extra.value else map["Name" := name]
  }
}

=== FILE: pagination.dfy ===
/** The follow-the-token aggregation shared by every list tool: call once with no
    token, append the page's items, and call again with the returned token until a
    response carries none.

    The remote service is a finite script of replies, consumed one per call. The
    source loop has no local bound; the model only runs scripts in which some reply
    ends the chain (`StopsFrom`). */
module Pagination {
  import opened Common

  /** One list response: this page's items and the continuation token, if any. */
  datatype Page<T> = Page(items: seq<T>, nextToken: Option<string>)

  /** What the service does on one list call: return a page or raise. */
  datatype Reply<T> = Served(page: Page<T>) | Raised(error: RemoteError)

  /** A reply after which the loop issues no further call. */
  predicate Stops<T>(r: Reply<T>) {
    r.Raised? || r.page.nextToken.None?
  }

  /** Some reply at or after index `from` ends the chain. */
  predicate StopsFrom<T>(script: seq<Reply<T>>, from: nat) {
    exists j :: from <= j < |script| && Stops(script[j])
  }

  /** The outcome of following tokens: the accumulated items (or the error that
      aborted the loop) and the token sent on each call, in call order. */
  datatype Fetched<T> = Fetched(items: Result<seq<T>>, tokens: seq<Option<string>>)

  /** Issue call number `i` with token `sent`, then keep following tokens. */
  function FollowFrom<T>(script: seq<Reply<T>>, i: nat, sent: Option<string>): (f: Fetched<T>)
    requires StopsFrom(script, i)
    ensures 1 <= |f.tokens| <= |script| - i
    ensures f.tokens[0] == sent
    ensures Stops(script[i + |f.tokens| - 1])
    ensures forall j :: i <= j < i + |f.tokens| - 1 ==> !Stops(script[j])
    ensures f.items.Err? <==> script[i + |f.tokens| - 1].Raised?
    ensures f.items.Err? ==> script[i + |f.tokens| - 1].Raised? && f.items == Err(Remote(script[i + |f.tokens| - 1].error))
    decreases |script| - i
  {
    match script[i]
    case Raised(e) => Fetched(Err(Remote(e)), [sent])
    case Served(p) =>
      if p.nextToken.None? then Fetched(Ok(p.items), [sent])
      else
        var rest := FollowFrom(script, i + 1, p.nextToken);
        Fetched(if rest.items.Ok? then Ok(p.items + rest.items.value) else rest.items, [sent] + rest.tokens)
  }

  /** The whole loop: the first call carries no token. */
  function Paginate<T>(script: seq<Reply<T>>): (f: Fetched<T>)
    requires StopsFrom(script, 0)
    ensures 1 <= |f.tokens| <= |script| && f.tokens[0] == None
  {
    FollowFrom(script, 0, None)
  }

  /** Reference reading of the result: every page's items, in page order. */
  function Concat<T>(pages: seq<Page<T>>): seq<T> {
    if |pages| == 0 then [] else pages[0].items + Concat(pages[1..])
  }

  /** A well-behaved service: at least one page, every page but the last carries
      a token, the last carries none. */
  predicate Chain<T>(pages: seq<Page<T>>) {
    && |pages| >= 1
    && (forall k :: 0 <= k < |pages| - 1 ==> pages[k].nextToken.Some?)
    && pages[|pages| - 1].nextToken.None?
  }

  /** The script in which the service answers every call with the next page. */
  function Serve<T>(pages: seq<Page<T>>): (script: seq<Reply<T>>)
    ensures |script| == |pages|
    ensures forall k :: 0 <= k < |pages| ==> script[k] == Served(pages[k])
  {
    seq(|pages|, k requires 0 <= k < |pages| => Served(pages[k]))
  }

  lemma ConcatFrom<T>(pages: seq<Page<T>>, i: nat)
    requires i < |pages|
    ensures Concat(pages[i..]) == pages[i].items + Concat(pages[i + 1..])
  {
    assert pages[i..][1..] == pages[i + 1..];
  }

  /** One step of the loop at a page that carries a token: its items come first,
      then whatever the rest of the loop returns, and its call comes first. */
  lemma FollowStep<T>(script: seq<Reply<T>>, i: nat, sent: Option<string>)
    requires i < |script| && script[i].Served? && script[i].page.nextToken.Some?
    requires StopsFrom(script, i + 1)
    ensures StopsFrom(script, i)
    ensures FollowFrom(script, i, sent).tokens == [sent] + FollowFrom(script, i + 1, script[i].page.nextToken).tokens
    ensures FollowFrom(script, i + 1, script[i].page.nextToken).items.Ok? ==>
              FollowFrom(script, i, sent).items == Ok(script[i].page.items + FollowFrom(script, i + 1, script[i].page.nextToken).items.value)
  {
  }

  lemma {:induction false} FollowChain<T>(pages: seq<Page<T>>, i: nat, sent: Option<string>)
    requires Chain(pages) && i < |pages|
    ensures StopsFrom(Serve(pages), i)
    ensures FollowFrom(Serve(pages), i, sent).items == Ok(Concat(pages[i..]))
    ensures |FollowFrom(Serve(pages), i, sent).tokens| == |pages| - i
    ensures forall k :: 1 <= k < |pages| - i ==> FollowFrom(Serve(pages), i, sent).tokens[k] == pages[i + k - 1].nextToken
    decreases |pages| - i
  {
    var script := Serve(pages);
    assert Stops(script[|pages| - 1]);
    assert script[i] == Served(pages[i]);
    ConcatFrom(pages, i);
    var f := FollowFrom(script, i, sent);
    if i < |pages| - 1 {
      var p := pages[i];
      assert p.nextToken.Some?;
      FollowChain(pages, i + 1, p.nextToken);
      FollowStep(script, i, sent);
      var rest := FollowFrom(script, i + 1, p.nextToken);
      forall k | 1 <= k < |pages| - i
        ensures f.tokens[k] == pages[i + k - 1].nextToken
      {
        if k > 1 {
          assert f.tokens[k] == rest.tokens[k - 1];
        }
      }
    } else {
      assert pages[i + 1..] == [];
      assert Concat(pages[i + 1..]) == [];
      assert pages[i].items + [] == pages[i].items;
      assert f == Fetched(Ok(pages[i].items), [sent]);
    }
  }

  /** Over a well-behaved service the loop returns the in-order concatenation of
      all pages, makes exactly one call per page, sends no token on the first call
      and on every later call the token the previous page returned. */
  lemma PaginateChain<T>(pages: seq<Page<T>>)
    requires Chain(pages)
    ensures StopsFrom(Serve(pages), 0)
    ensures Paginate(Serve(pages)).items == Ok(Concat(pages))
    ensures |Paginate(Serve(pages)).tokens| == |pages|
    ensures Paginate(Serve(pages)).tokens[0] == None
    ensures forall k :: 0 < k < |pages| ==> Paginate(Serve(pages)).tokens[k] == pages[k - 1].nextToken
  {
    FollowChain(pages, 0, None);
    assert pages[0..] == pages;
    var t := Paginate(Serve(pages)).tokens;
    forall k | 0 < k < |pages|
      ensures t[k] == pages[k - 1].nextToken
    {
      assert t[k] == pages[0 + k - 1].nextToken;
    }
  }

  lemma {:induction false} FollowAbort<T>(pages: seq<Page<T>>, e: RemoteError, tail: seq<Reply<T>>, i: nat, sent: Option<string>)
    requires forall k :: 0 <= k < |pages| ==> pages[k].nextToken.Some?
    requires i <= |pages|
    ensures StopsFrom(Serve(pages) + [Raised(e)] + tail, i)
    ensures FollowFrom(Serve(pages) + [Raised(e)] + tail, i, sent) == Fetched(Err(Remote(e)), FollowFrom(Serve(pages) + [Raised(e)] + tail, i, sent).tokens)
    ensures |FollowFrom(Serve(pages) + [Raised(e)] + tail, i, sent).tokens| == |pages| - i + 1
    decreases |pages| - i
  {
    var script := Serve(pages) + [Raised(e)] + tail;
    assert script[|pages|] == Raised(e);
    assert Stops(script[|pages|]);
    if i < |pages| {
      assert script[i] == Served(pages[i]);
      FollowAbort(pages, e, tail, i + 1, pages[i].nextToken);
    }
  }

  /** An error on any call aborts the loop: the same error comes out, the items of
      the pages already fetched are discarded, and no call follows the failing one
      (so a failing first call is the only call). */
  lemma PaginateAbort<T>(pages: seq<Page<T>>, e: RemoteError, tail: seq<Reply<T>>)
    requires forall k :: 0 <= k < |pages| ==> pages[k].nextToken.Some?
    ensures StopsFrom(Serve(pages) + [Raised(e)] + tail, 0)
    ensures Paginate(Serve(pages) + [Raised(e)] + tail).items == Err(Remote(e))
    ensures |Paginate(Serve(pages) + [Raised(e)] + tail).tokens| == |pages| + 1
  {
    FollowAbort(pages, e, tail, 0, None);
  }

  lemma {:induction false} FollowIgnoresTail<T>(script: seq<Reply<T>>, tail: seq<Reply<T>>, i: nat, sent: Option<string>)
    requires StopsFrom(script, i)
    ensures StopsFrom(script + tail, i)
    ensures FollowFrom(script + tail, i, sent) == FollowFrom(script, i, sent)
    decreases |script| - i
  {
    var j :| i <= j < |script| && Stops(script[j]);
    assert (script + tail)[j] == script[j];
    assert (script + tail)[i] == script[i];
    if !Stops(script[i]) {
      FollowIgnoresTail(script, tail, i + 1, script[i].page.nextToken);
    }
  }

  /** The loop stops at the first response without a token: whatever the service
      would have answered afterwards is never asked for. */
  lemma PaginateIgnoresTail<T>(script: seq<Reply<T>>, tail: seq<Reply<T>>)
    requires StopsFrom(script, 0)
    ensures StopsFrom(script + tail, 0)
    ensures Paginate(script + tail) == Paginate(script)
  {
    FollowIgnoresTail(script, tail, 0, None);
  }

  /** A paginated list tool: check the client handle, follow tokens, and on any
      exception log one error line and re-raise it. */
  function CollectAll<T>(initialised: bool, notInitialized: string, errorPrefix: string, script: seq<Reply<T>>): (r: Run<seq<T>, Option<string>>)
    requires initialised ==> StopsFrom(script, 0)
    ensures !initialised ==> r.result == Err(NotInitialized(notInitialized)) && r.calls == []
    ensures initialised ==> 1 <= |r.calls| <= |script| && r.calls[0] == None
    ensures initialised ==> r.calls == Paginate(script).tokens && r.result == Paginate(script).items
    ensures r.result.Ok? ==> r.log == []
    ensures r.result.Err? ==> |r.log| == 1 && r.log[0].Error? && errorPrefix <= r.log[0].text
  {
    if !initialised then Raise(NotInitialized(notInitialized), [], errorPrefix)
    else
      var f := Paginate(script);
      match f.items
      case Ok(xs) => Run(Ok(xs), f.tokens, [])
      case Err(e) => Raise(e, f.tokens, errorPrefix)
  }

  /** Over a well-behaved service an initialised list tool returns every page's
      items in order, issues exactly one call per page and logs nothing. */
  lemma CollectAllChain<T>(notInitialized: string, errorPrefix: string, pages: seq<Page<T>>)
    requires Chain(pages)
    ensures StopsFrom(Serve(pages), 0)
    ensures CollectAll(true, notInitialized, errorPrefix, Serve(pages)).result == Ok(Concat(pages))
    ensures |CollectAll(true, notInitialized, errorPrefix, Serve(pages)).calls| == |pages|
    ensures CollectAll(true, notInitialized, errorPrefix, Serve(pages)).log == []
  {
    PaginateChain(pages);
  }

  /** An initialised list tool whose first call raises re-raises that error after
      exactly one call and one log line. */
  /** An exception on any page, the first or a later one, reaches the caller: the
      tool stops after the failing call, returns none of the pages already
      fetched, logs `prefix + str(e)` once and re-raises `e`. */
  lemma CollectAllAbort<T>(notInitialized: string, errorPrefix: string, pages: seq<Page<T>>, e: RemoteError, tail: seq<Reply<T>>)
    requires forall k :: 0 <= k < |pages| ==> pages[k].nextToken.Some?
    ensures StopsFrom(Serve(pages) + [Raised(e)] + tail, 0)
    ensures CollectAll(true, notInitialized, errorPrefix, Serve(pages) + [Raised(e)] + tail).result == Err(Remote(e))
    ensures |CollectAll(true, notInitialized, errorPrefix, Serve(pages) + [Raised(e)] + tail).calls| == |pages| + 1
    ensures CollectAll(true, notInitialized, errorPrefix, Serve(pages) + [Raised(e)] + tail).log == [Error(errorPrefix + e.text)]
  {
    PaginateAbort(pages, e, tail);
  }

  lemma CollectAllFirstCallFails<T>(notInitialized: string, errorPrefix: string, e: RemoteError, tail: seq<Reply<T>>)
    ensures StopsFrom([Raised(e)] + tail, 0)
    ensures CollectAll(true, notInitialized, errorPrefix, [Raised(e)] + tail).result == Err(Remote(e))
    ensures |CollectAll(true, notInitialized, errorPrefix, [Raised(e)] + tail).calls| == 1
    ensures CollectAll(true, notInitialized, errorPrefix, [Raised(e)] + tail).log == [Error(errorPrefix + e.text)]
  {
    var none: seq<Page<T>> := [];
    assert Serve(none) + [Raised(e)] + tail == [Raised(e)] + tail;
    PaginateAbort(none, e, tail);
  }
}

=== FILE: registry.dfy ===
/** The process-wide client registry and the startup decisions of the server
    entry point, as explicit immutable values: the five client handles, the write
    flag, session selection, (re-)initialisation and the launch sequence.

    Building a session or client is an external call; its outcome is an input
    (`Construction`), and so are the command line and the `AWS_REGION` variable. */
module Registry {
  import opened Common

  const DefaultRegion := "us-east-1"

  /** Service names, in the order the clients are constructed and assigned. */
  const FisService := "fis"
  const S3Service := "s3"
  const ResourceExplorerService := "resource-explorer-2"
  const CloudFormationService := "cloudformation"
  const ConfigService := "config"

  /** A credentials session: a region and, only when one was named, a profile. */
  datatype Session = Session(region: string, profile: Option<string>)

  /** A constructed client of one service, bound to its session. */
  datatype Handle = Handle(service: string, session: Session)

  /** The five global client handles; None means "not initialised". */
  datatype Clients = Clients(
    fis: Option<Handle>,
    s3: Option<Handle>,
    resourceExplorer: Option<Handle>,
    cloudFormation: Option<Handle>,
    config: Option<Handle>)

  /** What the tools read from the registry. */
  datatype Server = Server(clients: Clients, allowWrites: bool)

  const NoClients := Clients(None, None, None, None, None)

  /** What the FIS tools raise when the FIS handle is None. */
  const FisNotInitialized := "AWS FIS client not initialized. Please ensure the server is properly configured."

  /** How the external session/client construction behaves: every step succeeds, or
      the first `built` clients are constructed and assigned and then an exception
      is raised (`built` = 0 covers a failing session). */
  datatype Construction = Builds | FailsAfter(built: nat, error: string)

  /** The session chosen for a region and an optional profile: the profile is used
      only when it is truthy, otherwise the session has the region alone. */
  function OpenSession(region: string, profile: Option<string>): (s: Session)
    ensures s.region == region
    ensures s.profile.Some? <==> Truthy(profile)
    ensures s.profile.Some? ==> s.profile == profile
  {
    if Truthy(profile) then Session(region, profile) else Session(region, None)
  }

  /** The handles after assigning, in construction order, the first `count` new
      clients of `session`; the others keep their previous value. */
  function Assign(prior: Clients, session: Session, count: nat): Clients {
    Clients(
      if count > 0 then Some(Handle(FisService, session)) else prior.fis,
      if count > 1 then Some(Handle(S3Service, session)) else prior.s3,
      if count > 2 then Some(Handle(ResourceExplorerService, session)) else prior.resourceExplorer,
      if count > 3 then Some(Handle(CloudFormationService, session)) else prior.cloudFormation,
      if count > 4 then Some(Handle(ConfigService, session)) else prior.config)
  }

  /** True when every handle is set and bound to `session`. */
  predicate AllBound(c: Clients, session: Session) {
    && c.fis == Some(Handle(FisService, session))
    && c.s3 == Some(Handle(S3Service, session))
    && c.resourceExplorer == Some(Handle(ResourceExplorerService, session))
    && c.cloudFormation == Some(Handle(CloudFormationService, session))
    && c.config == Some(Handle(ConfigService, session))
  }

  /** The outcome of an initialisation: the resulting handles and the exception
      that escaped, if any. */
  datatype InitOutcome = InitOutcome(clients: Clients, raised: Option<string>)

  /** Re-create all five clients for a region and optional profile. A construction
      error is re-raised; the handles assigned before it are not rolled back. */
  function InitializeClients(prior: Clients, region: string, profile: Option<string>, how: Construction): (r: InitOutcome)
    ensures how.Builds? ==> r.raised == None && AllBound(r.clients, OpenSession(region, profile))
    ensures how.FailsAfter? ==> r.raised == Some(how.error)
    ensures how.FailsAfter? && how.built == 0 ==> r.clients == prior
    ensures how.FailsAfter? ==>
              r.clients.fis == (if how.built > 0 then Some(Handle(FisService, OpenSession(region, profile))) else prior.fis)
    ensures how.FailsAfter? ==>
              r.clients.s3 == (if how.built > 1 then Some(Handle(S3Service, OpenSession(region, profile))) else prior.s3)
    ensures how.FailsAfter? ==>
              r.clients.resourceExplorer == (if how.built > 2 then Some(Handle(ResourceExplorerService, OpenSession(region, profile))) else prior.resourceExplorer)
    ensures how.FailsAfter? ==>
              r.clients.cloudFormation == (if how.built > 3 then Some(Handle(CloudFormationService, OpenSession(region, profile))) else prior.cloudFormation)
    ensures how.FailsAfter? ==>
              r.clients.config == (if how.built > 4 then Some(Handle(ConfigService, OpenSession(region, profile))) else prior.config)
  {
    var session := OpenSession(region, profile);
    match how
    case Builds => InitOutcome(Assign(prior, session, 5), None)
    case FailsAfter(built, error) => InitOutcome(Assign(prior, session, if built < 5 then built else 5), Some(error))
  }

  /** The region read from the environment: `AWS_REGION` when it is set (even to
      ""), else the default. */
  function EnvironmentRegion(envRegion: Option<string>): string {
    envRegion.GetOr(DefaultRegion)
  }

  /** Module-load initialisation with the environment region and no profile: a
      construction error is swallowed, leaving the unassigned handles as they were,
      so that each tool reports its own missing client. */
  function InitDefaultClients(prior: Clients, envRegion: Option<string>, how: Construction): (r: Clients)
    ensures how.Builds? ==> AllBound(r, Session(EnvironmentRegion(envRegion), None))
    ensures how.FailsAfter? && how.built == 0 ==> r == prior
  {
    InitializeClients(prior, EnvironmentRegion(envRegion), None, how).clients
  }

  /** The registry right after the module is loaded: writes disabled, clients from
      the default initialisation over all-unset handles. */
  function Boot(envRegion: Option<string>, how: Construction): (s: Server)
    ensures !s.allowWrites
    ensures how.FailsAfter? && how.built == 0 ==> s.clients == NoClients
  {
    Server(InitDefaultClients(NoClients, envRegion, how), false)
  }

  /** The parsed command line. */
  datatype CommandLine = CommandLine(awsProfile: Option<string>, awsRegion: Option<string>, allowWrites: bool)

  /** The region the server runs in: the command-line region when truthy, else the
      environment's, else the default. */
  function EffectiveRegion(cliRegion: Option<string>, envRegion: Option<string>): (region: string)
    ensures Truthy(cliRegion) ==> region == cliRegion.value
    ensures !Truthy(cliRegion) && envRegion.Some? ==> region == envRegion.value
    ensures !Truthy(cliRegion) && envRegion.None? ==> region == DefaultRegion
  {
    if Truthy(cliRegion) then cliRegion.value else EnvironmentRegion(envRegion)
  }

  /** The outcome of the entry point up to serving. */
  datatype Launched = Launched(
    server: Server,
    region: string,
    reinitialized: Option<(string, Option<string>)>,  // the (region, profile) re-initialisation was called with
    serving: bool)                                    // whether the tool-serving loop was entered

  /** The entry point: store the flags, compute the effective region, re-initialise
      the clients only when a profile or region override was given, then serve. An
      exception from re-initialisation propagates, so the server never starts. */
  function Launch(booted: Server, args: CommandLine, envRegion: Option<string>, how: Construction): (r: Launched)
    ensures r.server.allowWrites == args.allowWrites
    ensures r.region == EffectiveRegion(args.awsRegion, envRegion)
    ensures r.reinitialized.Some? <==> Truthy(args.awsProfile) || Truthy(args.awsRegion)
    ensures r.reinitialized.Some? ==> r.reinitialized.value == (r.region, args.awsProfile)
    ensures r.reinitialized.None? ==> r.server.clients == booted.clients && r.serving
    ensures r.reinitialized.Some? ==> (r.serving <==> how.Builds?)
    ensures r.reinitialized.Some? && how.Builds? ==> AllBound(r.server.clients, OpenSession(r.region, args.awsProfile))
  {
    var region := EffectiveRegion(args.awsRegion, envRegion);
    if Truthy(args.awsProfile) || Truthy(args.awsRegion) then
      var init := InitializeClients(booted.clients, region, args.awsProfile, how);
      Launched(Server(init.clients, args.allowWrites), region, Some((region, args.awsProfile)), init.raised.None?)
    else
      Launched(Server(booted.clients, args.allowWrites), region, None, true)
  }
}

=== FILE: template_tools.dfy ===
/** The experiment-template tools: create (gated, tag-seeded, empty collections
    by default) and update (sparse keyword map, not gated). */
module TemplateTools {
  import opened Common
  import opened Registry
  import opened Mutating

  const CreateCapability := "template creation"

  /** The service's answer to create/update: the `experimentTemplate` object, if present. */
  datatype TemplateReply = TemplateReply(experimentTemplate: Option<Document>)

  /** The template id a success message names: the object's `id`, else "unknown". */
  function ReportedId(reply: TemplateReply): (id: string)
    ensures reply.experimentTemplate.Some? && "id" in reply.experimentTemplate.value ==> id == reply.experimentTemplate.value["id"]
    ensures (reply.experimentTemplate.None? || "id" !in reply.experimentTemplate.value) ==> id == "unknown"
  {
    var template := reply.experimentTemplate.GetOr(map[]);
    if "id" in template then template["id"] else "unknown"
  }

  /** The arguments of `create_experiment_template`. Request bodies are passed
      through as plain documents; the tool does not validate them. */
  datatype CreateArgs = CreateArgs(
    clientToken: string,
    description: string,
    roleArn: string,
    name: string,
    tags: Option<Tags>,
    stopConditions: Option<seq<Document>>,
    targets: Option<map<string, Document>>,
    actions: Option<map<string, Document>>,
    logConfiguration: Option<Document>,
    experimentOptions: Option<map<string, string>>,
    reportConfiguration: Option<Document>)

  /** The `create_experiment_template` request sent to the service. */
  datatype CreateCall = CreateCall(
    clientToken: string,
    description: string,
    stopConditions: seq<Document>,
    targets: map<string, Document>,
    actions: map<string, Document>,
    roleArn: string,
    tags: Tags,
    logConfiguration: Option<Document>,
    experimentOptions: Option<map<string, string>>,
    experimentReportConfiguration: Option<Document>)

  /** `create_experiment_template`: client check, write gate, then one remote call.
      Absent stop conditions, targets and actions are sent empty; the optional
      configuration fields are passed through as given (None included). */
  function CreateExperimentTemplate(srv: Server, a: CreateArgs, reply: Response<TemplateReply>): (r: Run<TemplateReply, CreateCall>)
    ensures srv.clients.fis.None? ==> r == Run(Err(NotInitialized(FisNotInitialized)), [], [])
    ensures srv.clients.fis.Some? && !srv.allowWrites ==>
              && r.calls == [] && r.result.Err? && r.result.failure.WriteDisabled?
              && WriteDisabledBanner <= r.result.failure.message
              && Contains(r.result.failure.message, AllowWritesHint)
              && Contains(r.result.failure.message, "template creation")
              && r.log == [Error(r.result.failure.message)]
    ensures srv.clients.fis.Some? && srv.allowWrites ==> |r.calls| == 1
    ensures |r.calls| == 1 ==>
              && r.calls[0].clientToken == a.clientToken && r.calls[0].description == a.description
              && r.calls[0].roleArn == a.roleArn
              && r.calls[0].tags == SeedTags(a.name, a.tags)
              && (a.stopConditions.None? ==> r.calls[0].stopConditions == [])
              && (a.targets.None? ==> r.calls[0].targets == map[])
              && (a.actions.None? ==> r.calls[0].actions == map[])
              && (a.stopConditions.Some? ==> r.calls[0].stopConditions == a.stopConditions.value)
              && (a.targets.Some? ==> r.calls[0].targets == a.targets.value)
              && (a.actions.Some? ==> r.calls[0].actions == a.actions.value)
              && r.calls[0].logConfiguration == a.logConfiguration
              && r.calls[0].experimentOptions == a.experimentOptions
              && r.calls[0].experimentReportConfiguration == a.reportConfiguration
    ensures srv.clients.fis.Some? && srv.allowWrites && reply.Returns? ==>
              && r.result == Ok(reply.value)
              && r.log == [Info("Created experiment template \"" + a.name + "\" with ID: " + ReportedId(reply.value))]
    ensures srv.clients.fis.Some? && srv.allowWrites && reply.Throws? ==>
              r.result == Err(Remote(reply.error)) && r.log == [Error("Error creating experiment template: " + reply.error.text)]
  {
    match Gate(srv.clients.fis.Some?, FisNotInitialized, srv.allowWrites, CreateCapability)
    case Some(refused) => refused
    case None =>
      var call := CreateCall(a.clientToken, a.description, a.stopConditions.GetOr([]), a.targets.GetOr(map[]),
                             a.actions.GetOr(map[]), a.roleArn, SeedTags(a.name, a.tags), a.logConfiguration,
                             a.experimentOptions, a.reportConfiguration);
      match reply
      case Throws(e) => Raise(Remote(e), [call], "Error creating experiment template: ")
      case Returns(resp) =>
        Run(Ok(resp), [call], [Info("Created experiment template \"" + a.name + "\" with ID: " + ReportedId(resp))])
  }

  /** The arguments of `update_experiment_template`: the id and any subset of fields. */
  datatype UpdateArgs = UpdateArgs(
    id: string,
    description: Option<string>,
    stopConditions: Option<seq<Document>>,
    targets: Option<map<string, Document>>,
    actions: Option<map<string, Document>>,
    roleArn: Option<string>,
    logConfiguration: Option<Document>,
    experimentOptions: Option<map<string, string>>,
    experimentReportConfiguration: Option<Document>)

  /** One value of the update keyword map. */
  datatype Param =
    | Text(text: string)
    | Conditions(conditions: seq<Document>)
    | Targets(targets: map<string, Document>)
    | Actions(actions: map<string, Document>)
    | Logging(logging: Document)
    | Options(options: map<string, string>)
    | Report(report: Document)

  /** Every key the update keyword map can hold. */
  const UpdateKeys := {"id", "description", "stopConditions", "targets", "actions", "roleArn",
                       "logConfiguration", "experimentOptions", "experimentReportConfiguration"}

  /** The value sent under `key`, or None when that argument was not supplied. */
  function Entry(a: UpdateArgs, key: string): Option<Param> {
    match key
    case "id" => Some(Text(a.id))
    case "description" => if a.description.Some? then Some(Text(a.description.value)) else None
    case "stopConditions" => if a.stopConditions.Some? then Some(Conditions(a.stopConditions.value)) else None
    case "targets" => if a.targets.Some? then Some(Targets(a.targets.value)) else None
    case "actions" => if a.actions.Some? then Some(Actions(a.actions.value)) else None
    case "roleArn" => if a.roleArn.Some? then Some(Text(a.roleArn.value)) else None
    case "logConfiguration" => if a.logConfiguration.Some? then Some(Logging(a.logConfiguration.value)) else None
    case "experimentOptions" => if a.experimentOptions.Some? then Some(Options(a.experimentOptions.value)) else None
    case "experimentReportConfiguration" =>
      if a.experimentReportConfiguration.Some? then Some(Report(a.experimentReportConfiguration.value)) else None
    case _ => None
  }

  /** The keyword map `update_experiment_template` sends: always `id`, and each
      other key only when its argument is not None. */
  function UpdateParams(a: UpdateArgs): (p: map<string, Param>)
    ensures "id" in p && p["id"] == Text(a.id)
    ensures "description" in p <==> a.description.Some?
    ensures "stopConditions" in p <==> a.stopConditions.Some?
    ensures "targets" in p <==> a.targets.Some?
    ensures "actions" in p <==> a.actions.Some?
    ensures "roleArn" in p <==> a.roleArn.Some?
    ensures "logConfiguration" in p <==> a.logConfiguration.Some?
    ensures "experimentOptions" in p <==> a.experimentOptions.Some?
    ensures "experimentReportConfiguration" in p <==> a.experimentReportConfiguration.Some?
    ensures p.Keys <= UpdateKeys
  {
    map k | k in UpdateKeys && Entry(a, k).Some? :: Entry(a, k).value
  }

  /** How the service reads the keyword map back into an update: a key it does not
      find means "leave that field unchanged". */
  function ReadUpdate(p: map<string, Param>): Option<UpdateArgs> {
    if "id" !in p || !p["id"].Text? then None
    else Some(UpdateArgs(
      p["id"].text,
      if "description" in p && p["description"].Text? then Some(p["description"].text) else None,
      if "stopConditions" in p && p["stopConditions"].Conditions? then Some(p["stopConditions"].conditions) else None,
      if "targets" in p && p["targets"].Targets? then Some(p["targets"].targets) else None,
      if "actions" in p && p["actions"].Actions? then Some(p["actions"].actions) else None,
      if "roleArn" in p && p["roleArn"].Text? then Some(p["roleArn"].text) else None,
      if "logConfiguration" in p && p["logConfiguration"].Logging? then Some(p["logConfiguration"].logging) else None,
      if "experimentOptions" in p && p["experimentOptions"].Options? then Some(p["experimentOptions"].options) else None,
      if "experimentReportConfiguration" in p && p["experimentReportConfiguration"].Report?
        then Some(p["experimentReportConfiguration"].report) else None))
  }

  /** The sparse map loses nothing: every supplied value arrives under its key and
      every omitted field is absent, so reading the map back gives the arguments. */
  lemma UpdateParamsRoundTrip(a: UpdateArgs)
    ensures ReadUpdate(UpdateParams(a)) == Some(a)
  {
    var p := UpdateParams(a);
    assert a.description.Some? ==> p["description"] == Text(a.description.value);
    assert a.stopConditions.Some? ==> p["stopConditions"] == Conditions(a.stopConditions.value);
    assert a.targets.Some? ==> p["targets"] == Targets(a.targets.value);
    assert a.actions.Some? ==> p["actions"] == Actions(a.actions.value);
    assert a.roleArn.Some? ==> p["roleArn"] == Text(a.roleArn.value);
    assert a.logConfiguration.Some? ==> p["logConfiguration"] == Logging(a.logConfiguration.value);
    assert a.experimentOptions.Some? ==> p["experimentOptions"] == Options(a.experimentOptions.value);
    assert a.experimentReportConfiguration.Some? ==>
      p["experimentReportConfiguration"] == Report(a.experimentReportConfiguration.value);
  }

  /** `update_experiment_template`: build the sparse map, then (inside the tool's
      `try`, so it is logged) check the client, then one remote call. The write
      flag is never read. */
  function UpdateExperimentTemplate(srv: Server, a: UpdateArgs, reply: Response<TemplateReply>): (r: Run<TemplateReply, map<string, Param>>)
    ensures srv.clients.fis.None? ==> r.result == Err(NotInitialized(FisNotInitialized)) && r.calls == []
    ensures srv.clients.fis.Some? ==> r.calls == [UpdateParams(a)]
    ensures srv.clients.fis.Some? && reply.Returns? ==>
              r.result == Ok(reply.value) && r.log == [Info("Successfully updated experiment template: " + a.id)]
    ensures srv.clients.fis.Some? && reply.Throws? ==> r.result == Err(Remote(reply.error))
    ensures r.result.Err? ==> |r.log| == 1 && r.log[0].Error? && "Error updating experiment template: " <= r.log[0].text
  {
    var params := UpdateParams(a);
    var prefix := "Error updating experiment template: ";
    if srv.clients.fis.None? then Raise(NotInitialized(FisNotInitialized), [], prefix)
    else match reply
      case Throws(e) => Raise(Remote(e), [params], prefix)
      case Returns(resp) => Run(Ok(resp), [params], [Info("Successfully updated experiment template: " + a.id)])
  }

  /** Update behaves the same whether writes are enabled or not. */
  lemma UpdateIgnoresWriteFlag(srv: Server, a: UpdateArgs, reply: Response<TemplateReply>)
    ensures UpdateExperimentTemplate(srv, a, reply) == UpdateExperimentTemplate(srv.(allowWrites := !srv.allowWrites), a, reply)
  {
  }
}
